=== FILE: README.md ===
# ImageAI custom classification trainer, modelled in Dafny

This project models the logic of ImageAI's `ClassificationModelTrainer`
(`imageai/Classification/Custom/__init__.py`) that does not depend on tensors. It covers:

- the rewrite of legacy DenseNet-121 state-dict keys before a transfer-learning load;
- the strict load, the freeze and the head replacement in `__set_training_param`;
- the dataset name derived from the data directory;
- the `str(i) -> class` mapping written before training;
- the per-phase loss and accuracy ratios;
- the best-checkpoint rotation over the epochs;
- the order in which `trainModel` raises its errors.

Python's exceptions are the `Failure` side of a `Result`. The collaborators are parameters:

- `ImageFolder` and `DataLoader` supply the classes, the split sizes and the per-batch counts;
- `torch.load` supplies the checkpoint's keys and their order;
- `os.path.isdir` is a set of directories;
- the model directory is a set of file names.

Modules, one file each:

| module | file | what it holds |
|---|---|---|
| `Wrappers`, `Errors` | wrappers.dfy, errors.dfy | `Option`/`Result`; the exceptions the trainer can raise |
| `Strings` | strings.dfy | `str(n)` for naturals, digit runs, suffixes |
| `Sorting` | sorting.dfy | Python's `sorted` on strings (code-point order) |
| `KeyRemap` | key_remap.dfy | the anchored key pattern as a suffix decomposition; the rewrite loop over a key snapshot |
| `Paths` | paths.dfy | `os.path.basename(d.rstrip('/'))` |
| `ClassIndex` | class_mapping.dfy | the class-index mapping |
| `ModelAdapter` | model_adapter.dfy | architectures, head slots, strict load, freeze, head replacement |
| `Metrics` | metrics.dfy | running loss and corrects; the epoch loss and accuracy |
| `Checkpoints` | checkpoints.dfy | the `(best_acc, prev_save_name, files)` state machine |
| `Trainer` | trainer.dfy | the trainer's fields, its setters and `trainModel` |

Behaviour of the code that is easy to misread:

- **Checkpoint order.** When a better test accuracy arrives, the previous best file is removed *before* the new one is saved (lines 278-283). `Checkpoints.DeleteBeforeSaveLeavesNoCheckpoint` shows the moment when no checkpoint exists.
- **Strict load.** The transfer checkpoint is loaded strictly, and *before* the head is swapped (lines 51-52 then 58-66). Its keys must therefore include the backbone's original head.
- **Freezing.** Parameters are frozen only when a transfer path is in effect (lines 51-52, 101-103). `freezeAllLayers` alone freezes nothing.
- **Sticky state.** `transfer_from_model` overwrites the stored path for good (lines 196-197), even when the call then fails on the model-type check. A step-decay scheduler, once created, is never removed. The training parameters hold one model object that every call changes in place (lines 44, 60-66, 101-103). So a freeze-all transfer call leaves the backbone frozen, and a later `fineTuneAllLayers()` does not unfreeze it for the next call. Because the path is sticky too, that next call reloads the checkpoint (line 99) into the head the first call already replaced. That raises a size mismatch unless the class count equals the checkpoint head's width. Only in that case does a second call train with the freeze kept. The model does not see tensor shapes, so it lets every such reload succeed.
- **Failing phases.**
  - An empty split raises `ZeroDivisionError` at line 270.
  - A split that yields no batch leaves `running_corrects` a plain `int`, which has no `.double()` (line 271).
  - For `inception_v3` every output is read through `.logits` (lines 255-256), in both phases. The test phase runs after `eval()` (line 241). In eval mode torchvision's `Inception3` returns a plain tensor, which has no `.logits`. So an `inception_v3` run of one epoch or more raises on its first test batch and saves no checkpoint. `Trainer.InceptionNeverTrains` states this.
- **Model directory.** The class mapping file `<dataset>_model_classes.json` is written into the model directory before the first epoch (line 211). So the rotation inside `trainModel` never starts from an empty directory. A run from an empty directory ends with the mapping file and at most one checkpoint.

## Model

| member | source | states |
|---|---|---|
| KeyRemap.Parse | imageai/Classification/Custom/__init__.py:86-93 | a key the pattern matches decomposes into a well-formed prefix, `denselayer` digits, stage, index 1 or 2 and field that rebuild exactly that key |
| KeyRemap.ParseComplete | imageai/Classification/Custom/__init__.py:86-93 | every well-formed decomposition is found by the parser: a matching key splits in exactly one way |
| KeyRemap.IsLegacyIffMatches | imageai/Classification/Custom/__init__.py:93-94 | the executable match test agrees with "some well-formed decomposition rebuilds the key", in both directions |
| KeyRemap.RemapKey | imageai/Classification/Custom/__init__.py:93-95 | the stored key is the key itself or strictly shorter, so a renamed key never lands on itself (which of the two is stated by the next two rows) |
| KeyRemap.RemapMatchingKey | imageai/Classification/Custom/__init__.py:93-95 | a matching key becomes group 1 followed by group 2: the same text without the dot between `norm/relu/conv` and the index (and without a trailing line feed `$` matched before) |
| KeyRemap.RemapOtherKey | imageai/Classification/Custom/__init__.py:93-94 | a key the pattern does not match is left unchanged |
| KeyRemap.ModernKeyNotLegacy | imageai/Classification/Custom/__init__.py:86-95 | a rewritten key never matches the pattern again |
| KeyRemap.RemapKeyIdempotent | imageai/Classification/Custom/__init__.py:86-95 | rewriting a key twice is rewriting it once |
| KeyRemap.RemapPass | imageai/Classification/Custom/__init__.py:92-97 | the loop never adds an entry to the state dict: each iteration moves one entry, and a rename onto a present key loses one |
| KeyRemap.PassKeys | imageai/Classification/Custom/__init__.py:92-97 | after the loop over the key snapshot, the key set is exactly the image of the old key set under the single-key rewrite |
| KeyRemap.PassValues | imageai/Classification/Custom/__init__.py:92-97 | when no two keys rewrite to the same key, every value is found under its key's rewritten name |
| KeyRemap.PassIdempotent | imageai/Classification/Custom/__init__.py:92-97 | running the loop again, over any snapshot, changes nothing |
| KeyRemap.CollisionOverwrites | imageai/Classification/Custom/__init__.py:94-96 | when the rewritten key is already present, the legacy key's value wins in either visiting order and the other value is lost |
| Paths.RStripSlashes | imageai/Classification/Custom/__init__.py:125 | the result is a prefix of the path, does not end in `/`, and only `/` characters were removed |
| Paths.Basename | imageai/Classification/Custom/__init__.py:125 | the result is the longest `/`-free suffix of the path |
| Paths.DatasetName | imageai/Classification/Custom/__init__.py:125 | the dataset name contains no `/` |
| Paths.DatasetNameIgnoresTrailingSlashes | imageai/Classification/Custom/__init__.py:125 | appending any number of `/` to the data directory leaves the dataset name unchanged |
| Paths.DatasetNameOfPath | imageai/Classification/Custom/__init__.py:125 | for `parent/name///` and `name///` the dataset name is `name` |
| Strings.DecimalRoundTrip | imageai/Classification/Custom/__init__.py:215 | `str(i)` is the decimal text of i: reading its digits back gives i |
| Strings.NatToStringInjective | imageai/Classification/Custom/__init__.py:215 | different indices give different keys |
| Sorting.Sort | imageai/Classification/Custom/__init__.py:213 | `sorted` returns an ascending permutation of its input |
| Sorting.SortedUnique | imageai/Classification/Custom/__init__.py:213 | two ascending sequences with the same elements are equal |
| Sorting.SortPermutationInvariant | imageai/Classification/Custom/__init__.py:213 | inputs that are permutations of each other sort to the same list |
| ClassIndex.ClassMapping | imageai/Classification/Custom/__init__.py:211-216 | every class-list position has its `str(i)` key, and every value is one of the class names |
| ClassIndex.MappingKeys | imageai/Classification/Custom/__init__.py:211-216 | the mapping's keys are exactly `"0"` .. `"N-1"` for N class names |
| ClassIndex.MappingValues | imageai/Classification/Custom/__init__.py:211-216 | the value under `str(i)` is the i-th name in ascending order, so values read by index ascend |
| ClassIndex.MappingPermutationInvariant | imageai/Classification/Custom/__init__.py:211-216 | class folders listed in any order give the same mapping |
| ModelAdapter.LoadStateDict | imageai/Classification/Custom/__init__.py:99 | the strict load succeeds exactly when the checkpoint's keys are the network's state-dict keys (see Left out for BatchNorm's fill-in) |
| ModelAdapter.Freeze | imageai/Classification/Custom/__init__.py:101-103 | every parameter and every existing head becomes non-trainable, with names and widths unchanged |
| ModelAdapter.ReplaceHead | imageai/Classification/Custom/__init__.py:58-66 | the architecture's slot gets a trainable layer with the old input width and one output per class; nothing else changes; a missing slot raises |
| ModelAdapter.ConfigureNet | imageai/Classification/Custom/__init__.py:51-66 | configuration succeeds exactly when no checkpoint is loaded or its (rewritten) keys match the backbone, and the backbone has the slot; the key-mismatch error is raised exactly when a checkpoint is loaded and its keys differ, even when the slot is missing, because the load comes first |
| ModelAdapter.TransferKeys | imageai/Classification/Custom/__init__.py:84-97 | only a DenseNet-121 checkpoint is rewritten; for it the key set becomes the rewrite's image; any other checkpoint is passed through unchanged |
| ModelAdapter.TransferLearning | imageai/Classification/Custom/__init__.py:82-103 | the load succeeds exactly when the (rewritten) checkpoint's keys are the network's, and otherwise raises the strict-load error; on success names and widths are kept and every flag is cleared in freeze-all mode and kept otherwise |
| ModelAdapter.ConfigureNetTrainable | imageai/Classification/Custom/__init__.py:51-103 | the new head is trainable with the old input width; every other parameter keeps its flag unless a checkpoint was loaded in freeze-all mode, which clears it (so a parameter an earlier call froze stays frozen; the source reaches such a second call only when the class count equals the checkpoint head's width, since otherwise the reload raises a size mismatch) |
| Metrics.PhaseResult | imageai/Classification/Custom/__init__.py:243-271 | a phase yields metrics exactly when the split is non-empty and produced a batch; an empty split raises division by zero |
| Metrics.CorrectsAtMostSize | imageai/Classification/Custom/__init__.py:263-264 | the running corrects never exceed the examples seen |
| Metrics.AccuracyInUnitInterval | imageai/Classification/Custom/__init__.py:243-271 | when the batches cover the split, the epoch accuracy lies in [0, 1] |
| Checkpoints.CheckpointName | imageai/Classification/Custom/__init__.py:277 | the name is never empty (so never the "no checkpoint" marker), starts with the model type and ends with `_epoch-<epoch>.pt` |
| Checkpoints.CheckpointNameDeterminesEpoch | imageai/Classification/Custom/__init__.py:277 | whatever the formatted accuracy, a checkpoint's file name determines its epoch |
| Checkpoints.RemovePrevious | imageai/Classification/Custom/__init__.py:278-279 | removing the remembered file cannot fail while that file is on disk |
| Checkpoints.TestPhase | imageai/Classification/Custom/__init__.py:275-284 | `best_acc` never decreases and changes only on a strictly better accuracy; then the previous file is gone and the new one is on disk |
| Checkpoints.Run | imageai/Classification/Custom/__init__.py:232-284 | over any accuracies the rotation never fails from a consistent state, and `best_acc` ends at least where it started |
| Checkpoints.RunOutcome | imageai/Classification/Custom/__init__.py:222-284 | `best_acc` ends at the maximum accuracy; a file is remembered exactly when some accuracy was positive, and it is the first best epoch's checkpoint; it is the only file added; only this run's checkpoints were deleted |
| Checkpoints.SingleCheckpointRemains | imageai/Classification/Custom/__init__.py:222-284 | for the rotation alone, from an empty directory at most one checkpoint remains: none when no accuracy is positive, otherwise the first best epoch's |
| Checkpoints.BestNeverDecreases | imageai/Classification/Custom/__init__.py:275-276 | `best_acc` after k epochs is at most `best_acc` after all of them |
| Checkpoints.IncreasingAccuracyKeepsLastEpoch | imageai/Classification/Custom/__init__.py:275-284 | from an empty directory, with strictly rising accuracies that end positive (early epochs may score 0), the last epoch's checkpoint is the single checkpoint left (a rotation-level fact: inside `trainModel` the directory already holds the class mapping file) |
| Checkpoints.DeleteBeforeSaveLeavesNoCheckpoint | imageai/Classification/Custom/__init__.py:278-283 | when a run from an empty directory improves again, the directory holds no checkpoint between the removal and the save |
| Trainer.SetModel | imageai/Classification/Custom/__init__.py:153-167 | the chosen architecture and its training parameters are stored; the data directory, mode, path and scheduler are kept |
| Trainer.FreezeAllLayers | imageai/Classification/Custom/__init__.py:169-175 | the mode becomes freeze-all and nothing else changes |
| Trainer.FineTuneAllLayers | imageai/Classification/Custom/__init__.py:177-181 | the mode becomes fine-tune-all and nothing else changes |
| Trainer.LastSetterWins | imageai/Classification/Custom/__init__.py:153-181 | the last model choice and the last mode choice win, whatever came before |
| Trainer.SetModelSelects | imageai/Classification/Custom/__init__.py:42-66 | once a model type is chosen the missing-model-type error never occurs, and a successful call trains the chosen architecture on exactly the network configured from the chosen backbone, heads included |
| Trainer.FreshTrainerSetup | imageai/Classification/Custom/__init__.py:20-34 | a trainer fresh from `__init__` raises the missing-data-directory error and is left unchanged; with only a data directory set it raises the missing-model-type error; with both set, its default fine-tune-all mode keeps every backbone flag even when a checkpoint is loaded |
| Trainer.SetDataDirectory | imageai/Classification/Custom/__init__.py:148-151 | the directory is stored exactly when the path is an existing directory; otherwise `ValueError` and the trainer is unchanged |
| Trainer.TrainModel | imageai/Classification/Custom/__init__.py:193-200 | an unset data directory raises first, leaving the trainer unchanged; an unset model type raises next, after the transfer path was stored; the strict-load error is raised exactly when a checkpoint is in effect and its (rewritten) keys differ from the backbone's; a scheduler once created stays; on success the backbone is the configured network |
| Trainer.TrainConfigured | imageai/Classification/Custom/__init__.py:211-284 | once the network is configured (the scheduler rule is lines 75-80; the mapping lines 211-216; the epochs lines 232-284), the data directory, mode, path, architecture and decay settings are kept and the configured network becomes the selected backbone; a scheduler that existed stays, both decay settings non-zero create one, and nothing else does; a report carries the network, the dataset name, the class mapping and one step per epoch when a scheduler exists; a failure is a phase's division by zero or missing batch, or the missing `.logits` of an `inception_v3` test phase |
| Trainer.EpochPhase | imageai/Classification/Custom/__init__.py:237-271 | a phase raises the missing `.logits` error when the network is `inception_v3`, the phase is the test phase and a batch arrives; otherwise it is the plain phase computation, so an `inception_v3` test phase never succeeds |
| Trainer.EpochLoop | imageai/Classification/Custom/__init__.py:232-284 | at least one epoch succeeds exactly when the network is not `inception_v3` and every phase has a non-empty split that yields a batch; then the rotation state is consistent and the scheduler stepped once per epoch if it exists; otherwise the error is a division by zero, a missing batch, or (for `inception_v3` only) the missing `.logits` |
| Trainer.InceptionFirstTestPhaseRaises | imageai/Classification/Custom/__init__.py:241-256 | for `inception_v3`, once the first epoch's phases yield batches from a non-empty train split, every epoch count of one or more fails with the missing `.logits` error of the first test phase |
| Trainer.InceptionNeverTrains | imageai/Classification/Custom/__init__.py:241-256 | an `inception_v3` call running at least one epoch never returns normally; once configuration and the first train phase succeed and the test loader yields a batch, it raises the missing `.logits` error |
| Trainer.EpochLoopRun | imageai/Classification/Custom/__init__.py:232-284 | when no phase raises, the epochs are the checkpoint rotation over the test accuracies, with one scheduler step per epoch exactly when a scheduler exists |
| Trainer.CheckpointOrderVisitsKeys | imageai/Classification/Custom/__init__.py:91-99 | when the order is `list(state_dict.keys())`, the load receives the checkpoint's keys, rewritten for densenet121 |
| Trainer.TrainModelStrictLoad | imageai/Classification/Custom/__init__.py:91-99 | with that key order, a transferring call raises the strict-load error exactly when the checkpoint's keys, rewritten for densenet121, are not the backbone's state-dict keys |
| Trainer.TrainModelReport | imageai/Classification/Custom/__init__.py:183-284 | with the key order the source takes, a run where nothing raises (not `inception_v3` unless no epoch runs) reports the derived dataset name, the sorted class mapping, the rotation's final state and the scheduler steps |
| Trainer.TrainModelBestCheckpoint | imageai/Classification/Custom/__init__.py:211-284 | with loaders covering the test split, the kept best accuracy is the largest test accuracy and lies in [0, 1]; the class mapping file is in the directory; besides it, the only new file is the first best epoch's checkpoint; from an empty directory exactly the mapping file and that checkpoint (when some accuracy was positive) remain |
| Trainer.RotationOverTestAccuracies | imageai/Classification/Custom/__init__.py:243-284 | when every epoch's test loader covers the split, the rotation over the directory with the mapping file keeps the largest test accuracy, which lies in [0, 1]; it keeps the mapping file, and the only other file it adds is the checkpoint of the first epoch reaching that accuracy |
| Trainer.RotationKeepsMappingFile | imageai/Classification/Custom/__init__.py:211-284 | the rotation never deletes the mapping file, since a `.json` name is never a `.pt` checkpoint name; it keeps the first best epoch's checkpoint and adds nothing else; from an otherwise empty directory exactly those remain |
| Trainer.MappingFileIsNoCheckpoint | imageai/Classification/Custom/__init__.py:211-277 | the mapping file's name never equals a checkpoint's name |
| Trainer.TrainModelHead | imageai/Classification/Custom/__init__.py:51-66 | after a successful call the head has one output per class and is trainable; every other parameter keeps the backbone's flag unless a checkpoint was loaded in freeze-all mode, which clears it; for an all-trainable (fresh) backbone, everything but the head is frozen exactly when such a checkpoint was loaded; a backbone frozen by an earlier call stays frozen, which the source reaches only when the class count equals the checkpoint head's width (otherwise the reload raises a size mismatch) |

## Left out

- Tensor computation is not modelled: forward and backward passes, `torch.max`, the loss function, optimizer steps and the `StepLR` schedule itself. A batch is reported as its size, its correct count and its mean loss, and the scheduler as a step count.
- Tensor values and shapes are not modelled. A strict load that fails on a shape mismatch, and the parameters a failing strict load has already copied, are not modelled.
- Floating point is not modelled: losses and accuracies are exact `real`s.
- The `{:.5f}` rendering of the accuracy in a file name is a parameter, not modelled.
- `ImageFolder` and `DataLoader` (lines 109-124) are parameters: the classes, the split sizes and the batches. Their own errors are not modelled, for example a missing `train` folder. Neither are transforms and shuffling.
- The file system is abstracted. `torch.load` and `torch.save` are not modelled. Neither are the contents `json.dump` writes (the mapping file appears in the directory by name only), `os.mkdir`, or the default `model_directory` (lines 204-208). The model directory is a set of file names, and `os.path.isdir` is a set of directories.
- `\d` is modelled as the ASCII digits. Python also accepts other Unicode decimal digits.
- `os.path.sep` is modelled as `/`.
- Timing, the CUDA/CPU device choice, `verbose` printing, `tqdm`, `batch_size` and the optimizer's hyper-parameters are not modelled.
- KeyRemap.RemapPass: its own contract says only that the loop adds no entry. Which keys and values the loop leaves is stated by `KeyRemap.PassKeys`, `KeyRemap.PassValues` and `KeyRemap.CollisionOverwrites` instead. Frame clauses quantified over the matching keys made the solver unfold the key parser on arbitrary keys.
- Trainer.TrainModel: a configuration that fails after a freeze leaves the backbone unchanged. In the source, the freeze persists in the model object. This can only happen when a backbone lacks its head slot, which never happens for the four torchvision architectures.
- ModelAdapter.LoadStateDict: the key check is stricter than PyTorch's. For a state dict without version metadata (`_metadata`), BatchNorm fills in a missing `num_batches_tracked` instead of reporting it. Legacy DenseNet checkpoints, the ones the key rewrite exists for, are of this kind. So the model raises `StateDictMismatch` where the program loads, and the same holds for `ModelAdapter.TransferLearning`, `ModelAdapter.ConfigureNet` and the strict-load clause of `Trainer.TrainModel`.
- Trainer.TrainModel: a second transfer call that reloads the checkpoint into an already-replaced head raises a size mismatch in the source unless the class count equals the checkpoint head's width. Shapes are not modelled, so the model lets the reload succeed.
- Trainer.EpochPhase: the train phase of `inception_v3` is taken to yield outputs with `.logits`, which needs its auxiliary classifier enabled. That setting lives in `training_params.py`, which is not part of this model. The eval-mode output being a plain tensor is torchvision's behaviour, also outside the source.
- Trainer.TrainModel: the trained weights carried into a second call on the same trainer are not modelled. Only the replaced head and the freeze flags are.

=== FILE: checkpoints.dfy ===
/** Best-checkpoint rotation. After every test phase whose accuracy beats
    the best so far, the source deletes the previous best file, then saves
    the new one, and remembers its name. The model directory is abstracted
    to the set of file names in it. */
module Checkpoints {
  import opened Wrappers
  import opened Errors
  import opened Strings
  import opened ModelAdapter

  /** What a checkpoint's file name is built from. `format` stands for the
      `{:.5f}` rendering of the accuracy, which is not modelled. */
  datatype Naming = Naming(arch: Arch, dataset: string, format: real -> string)

  /** `<model type>-<dataset>-test_acc_<accuracy>_epoch-<epoch>.pt`: never
      empty, so it is never mistaken for "no checkpoint yet", and it ends
      with the epoch's decimal text and the `.pt` extension. */
  function CheckpointName(nm: Naming, acc: real, epoch: nat): (r: string)
    ensures r != ""
    ensures ArchName(nm.arch) + "-" <= r
    ensures EndsWith(r, "_epoch-" + NatToString(epoch) + ".pt")
  {
    var r := ArchName(nm.arch) + "-" + nm.dataset + "-test_acc_" + nm.format(acc)
      + "_epoch-" + NatToString(epoch) + ".pt";
    EndsWithConcat(ArchName(nm.arch) + "-" + nm.dataset + "-test_acc_" + nm.format(acc),
                   "_epoch-" + NatToString(epoch) + ".pt");
    r
  }

  /** Whatever the formatted accuracy looks like, a checkpoint's name
      determines its epoch: checkpoints of different epochs never share a
      file. */
  lemma CheckpointNameDeterminesEpoch(nm1: Naming, acc1: real, e1: nat,
                                      nm2: Naming, acc2: real, e2: nat)
    requires CheckpointName(nm1, acc1, e1) == CheckpointName(nm2, acc2, e2)
    ensures e1 == e2
  {
    var x1 := ArchName(nm1.arch) + "-" + nm1.dataset + "-test_acc_" + nm1.format(acc1) + "_epoch-";
    var x2 := ArchName(nm2.arch) + "-" + nm2.dataset + "-test_acc_" + nm2.format(acc2) + "_epoch-";
    var d1 := NatToString(e1);
    var d2 := NatToString(e2);
    var n := CheckpointName(nm1, acc1, e1);
    assert n == x1 + d1 + ".pt" == x2 + d2 + ".pt";
    assert (x1 + d1 + ".pt")[..|n| - 3] == x1 + d1;
    assert (x2 + d2 + ".pt")[..|n| - 3] == x2 + d2;
    assert x1[|x1| - 1] == '-' && x2[|x2| - 1] == '-';
    TrailingDigitsAfter(x1, d1);
    TrailingDigitsAfter(x2, d2);
    assert (x1 + d1)[|x1 + d1| - |d1|..] == d1;
    assert (x2 + d2)[|x2 + d2| - |d2|..] == d2;
    NatToStringInjective(e1, e2);
  }

  /** `best_acc`, `prev_save_name` and the files in the model directory. */
  datatype State = State(bestAcc: real, prevName: string, disk: set<string>)

  /** The state before the first epoch, over the directory's existing files. */
  function Start(disk: set<string>): State {
    State(0.0, "", disk)
  }

  /** The remembered file, if any, is on disk. */
  predicate Valid(s: State) {
    s.prevName != "" ==> s.prevName in s.disk
  }

  /** `os.remove` of the previous best file, when there is one. */
  function RemovePrevious(s: State): (r: Result<set<string>, Error>)
    ensures Valid(s) ==> r.Success?
  {
    if s.prevName == "" then Success(s.disk)
    else if s.prevName in s.disk then Success(s.disk - {s.prevName})
    else Failure(FileNotFound(s.prevName))
  }

  /** The end of a test phase: on a strictly better accuracy, delete the
      previous best file, then save the new one under its name. */
  function TestPhase(nm: Naming, s: State, acc: real, epoch: nat): (r: Result<State, Error>)
    ensures Valid(s) ==> r.Success? && Valid(r.value)
    ensures r.Success? ==> r.value.bestAcc >= s.bestAcc
    ensures r.Success? && r.value.bestAcc != s.bestAcc ==> acc > s.bestAcc && r.value.bestAcc == acc
    ensures acc <= s.bestAcc ==> r == Success(s)
    ensures r.Success? && acc > s.bestAcc ==>
      r.value.prevName == CheckpointName(nm, acc, epoch)
      && r.value.disk == (if s.prevName == "" then s.disk else s.disk - {s.prevName}) + {r.value.prevName}
  {
    if acc > s.bestAcc then
      var name := CheckpointName(nm, acc, epoch);
      match RemovePrevious(s)
      case Failure(e) => Failure(e)
      case Success(remaining) => Success(State(acc, name, remaining + {name}))
    else Success(s)
  }

  /** The checkpoint state after the test phases of epochs 0 .. |accs|-1,
      `accs[e]` being the test accuracy of epoch e. */
  function Run(nm: Naming, s0: State, accs: seq<real>): (r: Result<State, Error>)
    ensures Valid(s0) ==> r.Success? && Valid(r.value)
    ensures r.Success? ==> r.value.bestAcc >= s0.bestAcc
    decreases |accs|
  {
    if accs == [] then Success(s0)
    else
      match Run(nm, s0, accs[..|accs| - 1])
      case Failure(e) => Failure(e)
      case Success(s) => TestPhase(nm, s, accs[|accs| - 1], |accs| - 1)
  }

  /** The largest test accuracy, or 0.0 (the initial `best_acc`) if none is
      positive. */
  function BestAccuracy(accs: seq<real>): (r: real)
    ensures r >= 0.0
    ensures forall i | 0 <= i < |accs| :: accs[i] <= r
    ensures r > 0.0 ==> exists i :: 0 <= i < |accs| && accs[i] == r
  {
    if accs == [] then 0.0
    else
      var b := BestAccuracy(accs[..|accs| - 1]);
      var last := accs[|accs| - 1];
      assert forall i | 0 <= i < |accs| - 1 :: accs[i] == accs[..|accs| - 1][i];
      if last > b then last else b
  }

  /** The first epoch whose accuracy equals the maximum. */
  function FirstBestEpoch(accs: seq<real>): (e: nat)
    requires BestAccuracy(accs) > 0.0
    ensures e < |accs| && accs[e] == BestAccuracy(accs)
    ensures forall j | 0 <= j < e :: accs[j] < BestAccuracy(accs)
  {
    var prefix := accs[..|accs| - 1];
    assert forall i | 0 <= i < |accs| - 1 :: accs[i] == prefix[i];
    if accs[|accs| - 1] > BestAccuracy(prefix) then |accs| - 1 else FirstBestEpoch(prefix)
  }

  /** What a run leaves behind: `best_acc` is the maximum accuracy; a file
      is remembered exactly when some accuracy was positive, and it is the
      checkpoint of the first epoch reaching the maximum; it is on disk; it
      is the only file the run added; and the run deleted only files named
      after this run's checkpoints. */
  lemma {:induction false} RunOutcome(nm: Naming, disk0: set<string>, accs: seq<real>)
    ensures Run(nm, Start(disk0), accs).Success?
    ensures var s := Run(nm, Start(disk0), accs).value;
      && s.bestAcc == BestAccuracy(accs)
      && (s.prevName == "" <==> forall i | 0 <= i < |accs| :: accs[i] <= 0.0)
      && (s.prevName != "" ==>
            s.prevName == CheckpointName(nm, s.bestAcc, FirstBestEpoch(accs)) && s.prevName in s.disk)
      && (forall f | f in s.disk && f !in disk0 :: s.prevName != "" && f == s.prevName)
      && (forall f | f in disk0 && f !in s.disk ::
            exists e :: 0 <= e < |accs| && f == CheckpointName(nm, accs[e], e))
    decreases |accs|
  {
    if accs != [] {
      var prefix := accs[..|accs| - 1];
      var last := accs[|accs| - 1];
      RunOutcome(nm, disk0, prefix);
      var p := Run(nm, Start(disk0), prefix).value;
      var s := Run(nm, Start(disk0), accs).value;
      assert forall i | 0 <= i < |accs| - 1 :: accs[i] == prefix[i];
      if last > p.bestAcc {
        assert s.prevName == CheckpointName(nm, last, |accs| - 1);
        assert s.prevName != "" by {
          assert |s.prevName| > 0;
        }
        forall f | f in disk0 && f !in s.disk
          ensures exists e :: 0 <= e < |accs| && f == CheckpointName(nm, accs[e], e)
        {
          if f in p.disk {
            assert f == p.prevName && p.prevName != "";
            assert p.bestAcc > 0.0;
            var e := FirstBestEpoch(prefix);
            assert f == CheckpointName(nm, accs[e], e);
          } else {
            var e :| 0 <= e < |prefix| && f == CheckpointName(nm, prefix[e], e);
            assert f == CheckpointName(nm, accs[e], e);
          }
        }
      } else {
        assert s == p;
        forall f | f in disk0 && f !in s.disk
          ensures exists e :: 0 <= e < |accs| && f == CheckpointName(nm, accs[e], e)
        {
          var e :| 0 <= e < |prefix| && f == CheckpointName(nm, prefix[e], e);
          assert f == CheckpointName(nm, accs[e], e);
        }
      }
    }
  }

  /** Starting from an empty model directory, at most one checkpoint file
      remains: none when no test accuracy was positive, otherwise the file of
      the first epoch that reached the maximum accuracy. */
  lemma SingleCheckpointRemains(nm: Naming, accs: seq<real>)
    ensures Run(nm, Start({}), accs).Success?
    ensures Run(nm, Start({}), accs).value.disk
      == if BestAccuracy(accs) == 0.0 then {}
         else {CheckpointName(nm, BestAccuracy(accs), FirstBestEpoch(accs))}
  {
    RunOutcome(nm, {}, accs);
    var s := Run(nm, Start({}), accs).value;
    if BestAccuracy(accs) == 0.0 {
      assert s.disk == {};
    } else {
      assert s.prevName != "";
      assert s.disk == {s.prevName};
    }
  }

  /** `best_acc` never decreases from one epoch to a later one. */
  lemma BestNeverDecreases(nm: Naming, disk0: set<string>, accs: seq<real>, k: nat)
    requires k <= |accs|
    ensures Run(nm, Start(disk0), accs[..k]).Success?
    ensures Run(nm, Start(disk0), accs[..k]).value.bestAcc <= Run(nm, Start(disk0), accs).value.bestAcc
  {
    RunOutcome(nm, disk0, accs[..k]);
    RunOutcome(nm, disk0, accs);
    var b := BestAccuracy(accs[..k]);
    if b > 0.0 {
      var i :| 0 <= i < k && accs[..k][i] == b;
      assert accs[i] == b;
    }
  }

  /** When accuracy rises strictly every epoch and ends positive, a run
      from an empty directory leaves the last epoch's checkpoint as the
      single file, even if the first epochs scored 0. */
  lemma IncreasingAccuracyKeepsLastEpoch(nm: Naming, accs: seq<real>)
    requires |accs| > 0 && accs[|accs| - 1] > 0.0
    requires forall i, j | 0 <= i < j < |accs| :: accs[i] < accs[j]
    ensures Run(nm, Start({}), accs).Success?
    ensures Run(nm, Start({}), accs).value.disk
      == {CheckpointName(nm, accs[|accs| - 1], |accs| - 1)}
  {
    SingleCheckpointRemains(nm, accs);
    var last := |accs| - 1;
    var best := BestAccuracy(accs);
    var i :| 0 <= i < |accs| && accs[i] == best;
    assert accs[last] <= best;
    assert i == last;
    var e := FirstBestEpoch(accs);
    assert e == last;
  }

  /** The source deletes before it saves: when a run that already holds a
      checkpoint in an otherwise empty directory improves again, the
      directory is empty between the deletion and the save. */
  lemma DeleteBeforeSaveLeavesNoCheckpoint(nm: Naming, accs: seq<real>, acc: real)
    requires BestAccuracy(accs) > 0.0 && acc > BestAccuracy(accs)
    ensures Run(nm, Start({}), accs).Success?
    ensures RemovePrevious(Run(nm, Start({}), accs).value) == Success({})
    ensures Run(nm, Start({}), accs + [acc]).Success?
    ensures Run(nm, Start({}), accs + [acc]).value.disk == {CheckpointName(nm, acc, |accs|)}
  {
    SingleCheckpointRemains(nm, accs);
    RunOutcome(nm, {}, accs);
    var s := Run(nm, Start({}), accs).value;
    assert s.disk == {s.prevName} && s.prevName != "";
    assert s.disk - {s.prevName} == {};
    assert (accs + [acc])[..|accs|] == accs;
    assert Run(nm, Start({}), accs + [acc]) == TestPhase(nm, s, acc, |accs|);
  }
}

=== FILE: class_mapping.dfy ===
/** The class-index mapping the trainer writes before training: the class
    names are sorted and the i-th of them is stored under the key `str(i)`. */
module ClassIndex {
  import opened Strings
  import opened Sorting

  lemma NatToStringInjectiveAll()
    ensures forall i: nat, j: nat | NatToString(i) == NatToString(j) :: i == j
  {
    forall i: nat, j: nat | NatToString(i) == NatToString(j) ensures i == j {
      NatToStringInjective(i, j);
    }
  }

  /** `<dataset>_model_classes.json`, the file the mapping is written to
      in the model directory. */
  function MappingFileName(datasetName: string): (r: string)
    ensures EndsWith(r, ".json")
  {
    EndsWithConcat(datasetName + "_model_classes", ".json");
    datasetName + "_model_classes.json"
  }

  /** The object dumped to `<dataset>_model_classes.json`: one key per
      class-list position, each holding one of the class names. */
  function ClassMapping(classNames: seq<string>): (r: map<string, string>)
    ensures forall i | 0 <= i < |classNames| :: NatToString(i) in r
    ensures forall k | k in r :: r[k] in classNames
  {
    var sorted := Sort(classNames);
    NatToStringInjectiveAll();
    var r := map i | 0 <= i < |sorted| :: NatToString(i) := sorted[i];
    assert forall i | 0 <= i < |sorted| :: sorted[i] in classNames by {
      forall i | 0 <= i < |sorted| ensures sorted[i] in classNames {
        SortKeepsElements(classNames, i);
      }
    }
    r
  }

  /** The decimal texts of 0 .. n-1. */
  function IndexKeys(n: nat): set<string> {
    set i | 0 <= i < n :: NatToString(i)
  }

  /** The keys are exactly "0", "1", ..., "N-1" for N class names. */
  lemma MappingKeys(classNames: seq<string>)
    ensures ClassMapping(classNames).Keys == IndexKeys(|classNames|)
  {
    var m := ClassMapping(classNames);
    forall key | key in m ensures key in IndexKeys(|classNames|) {
      var i :| 0 <= i < |classNames| && NatToString(i) == key;
    }
  }

  /** The value under `str(i)` is the i-th name in ascending order: read in
      key order, the values are sorted and hold exactly the input names. */
  lemma MappingValues(classNames: seq<string>)
    ensures forall i | 0 <= i < |classNames| ::
      NatToString(i) in ClassMapping(classNames)
      && ClassMapping(classNames)[NatToString(i)] == Sort(classNames)[i]
    ensures forall i, j | 0 <= i < j < |classNames| ::
      LexLe(ClassMapping(classNames)[NatToString(i)], ClassMapping(classNames)[NatToString(j)])
  {
    var m := ClassMapping(classNames);
    var sorted := Sort(classNames);
    NatToStringInjectiveAll();
    forall i | 0 <= i < |classNames| ensures m[NatToString(i)] == sorted[i] {
    }
  }

  /** Listing the class folders in any other order gives the same mapping. */
  lemma MappingPermutationInvariant(a: seq<string>, b: seq<string>)
    requires multiset(a) == multiset(b)
    ensures ClassMapping(a) == ClassMapping(b)
  {
    SortPermutationInvariant(a, b);
  }
}

=== FILE: errors.dfy ===
/** The exceptions the trainer can raise, one constructor per raising site. */
module Errors {

  datatype Error =
    | DataDirectoryNotSet         // RuntimeError in __load_data
    | ModelTypeNotSet             // RuntimeError in __set_training_param
    | NotADirectory               // ValueError in setDataDirectory
    | StateDictMismatch           // RuntimeError of the strict load_state_dict
    | MissingHead                 // AttributeError: the backbone has no such head attribute
    | DivisionByZero              // ZeroDivisionError: a split with no examples
    | NoBatches                   // AttributeError: `0.double()` when a split yields no batch
    | NoLogits                    // AttributeError: `.logits` of a plain output tensor
    | FileNotFound(name: string)  // os.remove of a file that is not on disk
}

=== FILE: key_remap.dfy ===
/** Renaming of legacy DenseNet-121 state-dict keys before a transfer-learning
    load. The source matches every key against the anchored pattern
      (.*denselayer<digits>.(norm|relu|conv)).((1|2).(weight|bias|running_mean|running_var))$
    and replaces a matching key by the concatenation of the two groups, which
    drops the dot between the stage name and the sub-layer index. The pattern
    is modelled as a decomposition of the key from its end, not as a regular
    expression engine. */
module KeyRemap {
  import opened Wrappers
  import opened Strings

  datatype Stage = Norm | Relu | Conv

  /** The tensor a key names inside its sub-layer. */
  datatype Field = Weight | Bias | RunningMean | RunningVar

  function StageName(s: Stage): string {
    match s
    case Norm => "norm"
    case Relu => "relu"
    case Conv => "conv"
  }

  function FieldName(f: Field): string {
    match f
    case Weight => "weight"
    case Bias => "bias"
    case RunningMean => "running_mean"
    case RunningVar => "running_var"
  }

  /** A key the pattern matches, split into its parts. `newline` records a
      single trailing line feed, before which Python's `$` also matches. */
  datatype LegacyKey = LegacyKey(
    prefix: string, layer: string, stage: Stage, index: char, field: Field, newline: bool)

  /** `.*` does not cross a line feed, `\d+` is a non-empty digit run and
      the sub-layer index is 1 or 2. */
  predicate WellFormed(k: LegacyKey) {
    && '\n' !in k.prefix
    && |k.layer| > 0 && AllDigits(k.layer)
    && (k.index == '1' || k.index == '2')
  }

  /** The pattern's first capture group. */
  function Group1(k: LegacyKey): string {
    k.prefix + "denselayer" + k.layer + "." + StageName(k.stage)
  }

  /** The pattern's second capture group. */
  function Group2(k: LegacyKey): string {
    [k.index] + "." + FieldName(k.field)
  }

  /** The key as stored by the legacy checkpoint. */
  function Legacy(k: LegacyKey): string {
    Group1(k) + "." + Group2(k) + (if k.newline then "\n" else "")
  }

  /** The key the source writes in its place: group 1 followed by group 2. */
  function Modern(k: LegacyKey): string {
    Group1(k) + Group2(k)
  }

  /** The key matches the anchored pattern. */
  ghost predicate MatchesPattern(key: string) {
    exists k :: WellFormed(k) && Legacy(k) == key
  }

  /** The field a key ends with. The four field names end in four different
      letters, so the last letter decides which one to look for. */
  function FieldAtEnd(s: string): (r: Option<Field>)
    ensures r.Some? ==> EndsWith(s, FieldName(r.value))
  {
    if |s| == 0 then None
    else
      var f := match s[|s| - 1]
        case 't' => Some(Weight)
        case 's' => Some(Bias)
        case 'n' => Some(RunningMean)
        case 'r' => Some(RunningVar)
        case _ => None;
      if f.Some? && EndsWith(s, FieldName(f.value)) then f else None
  }

  lemma FieldAtEndComplete(a: string, f: Field)
    ensures FieldAtEnd(a + FieldName(f)) == Some(f)
  {
    var name := FieldName(f);
    EndsWithConcat(a, name);
    match f
    case Weight => assert name[|name| - 1] == 't';
    case Bias => assert name[|name| - 1] == 's';
    case RunningMean => assert name[|name| - 1] == 'n';
    case RunningVar => assert name[|name| - 1] == 'r';
  }

  function StageFromInitial(c: char): Option<Stage> {
    if c == 'n' then Some(Norm) else if c == 'r' then Some(Relu) else if c == 'c' then Some(Conv) else None
  }

  function StageAtEnd(s: string): (r: Option<Stage>)
    ensures r.Some? ==> EndsWith(s, "." + StageName(r.value))
  {
    if |s| < 5 || s[|s| - 5] != '.' then None
    else
      var stage :- StageFromInitial(s[|s| - 4]);
      if s[|s| - 4..] == StageName(stage) then
        assert s[|s| - 5..] == [s[|s| - 5]] + s[|s| - 4..];
        Some(stage)
      else None
  }

  /** The three stage names start with three different letters. */
  lemma StageAtEndComplete(a: string, st: Stage)
    ensures StageAtEnd(a + "." + StageName(st)) == Some(st)
  {
    var s := a + "." + StageName(st);
    assert s[|s| - 4..] == StageName(st);
    assert s[|s| - 4] == StageName(st)[0];
  }

  /** Splits off the pattern's tail `.(1|2).(weight|bias|running_mean|running_var)`,
      returning the part before it together with the index and the field. */
  function ParseTail(body: string): (r: Option<(string, char, Field)>)
    ensures r.Some? ==> body == r.value.0 + "." + [r.value.1] + "." + FieldName(r.value.2)
    ensures r.Some? ==> r.value.1 == '1' || r.value.1 == '2'
  {
    match FieldAtEnd(body)
    case None => None
    case Some(field) =>
      var name := FieldName(field);
      var rest := body[..|body| - |name|];
      if |rest| < 3 || rest[|rest| - 1] != '.' || rest[|rest| - 3] != '.'
         || (rest[|rest| - 2] != '1' && rest[|rest| - 2] != '2')
      then None
      else
        var g1 := rest[..|rest| - 3];
        assert rest == g1 + "." + [rest[|rest| - 2]] + ".";
        assert body == rest + name;
        Some((g1, rest[|rest| - 2], field))
  }

  /** Splits `.*denselayer<digits>` into the prefix and the layer number. */
  function ParseLayer(digitsEnd: string): (r: Option<(string, string)>)
    ensures r.Some? ==> digitsEnd == r.value.0 + "denselayer" + r.value.1
    ensures r.Some? ==> '\n' !in r.value.0 && |r.value.1| > 0 && AllDigits(r.value.1)
  {
    var n := TrailingDigits(digitsEnd);
    var layer := digitsEnd[|digitsEnd| - n..];
    var beforeDigits := digitsEnd[..|digitsEnd| - n];
    if n == 0 || !EndsWith(beforeDigits, "denselayer") then None
    else
      var prefix := beforeDigits[..|beforeDigits| - 10];
      if '\n' in prefix then None
      else
        assert beforeDigits == prefix + "denselayer";
        assert digitsEnd == beforeDigits + layer;
        Some((prefix, layer))
  }

  /** Splits the first capture group `.*denselayer<digits>.(norm|relu|conv)`
      into the prefix, the layer number and the stage. */
  function ParseGroup1(g1: string): (r: Option<(string, string, Stage)>)
    ensures r.Some? ==> g1 == r.value.0 + "denselayer" + r.value.1 + "." + StageName(r.value.2)
    ensures r.Some? ==> '\n' !in r.value.0 && |r.value.1| > 0 && AllDigits(r.value.1)
  {
    match StageAtEnd(g1)
    case None => None
    case Some(stage) =>
      match ParseLayer(g1[..|g1| - 5])
      case None => None
      case Some((prefix, layer)) =>
        assert g1 == g1[..|g1| - 5] + "." + StageName(stage);
        Some((prefix, layer, stage))
  }

  lemma ReassembleLegacy(k: LegacyKey, body: string)
    requires body == Group1(k) + "." + [k.index] + "." + FieldName(k.field)
    ensures body + (if k.newline then "\n" else "") == Legacy(k)
  {
    assert [k.index] + "." + FieldName(k.field) == Group2(k);
    assert body == Group1(k) + "." + Group2(k);
  }

  /** Python's `$` matches at the very end and also before one final line feed. */
  function SplitNewline(key: string): (r: (string, bool))
    ensures key == r.0 + (if r.1 then "\n" else "")
  {
    if |key| > 0 && key[|key| - 1] == '\n' then (key[..|key| - 1], true) else (key, false)
  }

  /** Decomposes `key` from its end the way the anchored pattern does;
      None when the pattern does not match. */
  function Parse(key: string): (r: Option<LegacyKey>)
    ensures r.Some? ==> WellFormed(r.value) && Legacy(r.value) == key
  {
    var split := SplitNewline(key);
    var tail := ParseTail(split.0);
    if tail.None? then None
    else
      var group1 := ParseGroup1(tail.value.0);
      if group1.None? then None
      else
        var k := LegacyKey(group1.value.0, group1.value.1, group1.value.2,
                           tail.value.1, tail.value.2, split.1);
        assert Group1(k) == tail.value.0;
        ReassembleLegacy(k, split.0);
        Some(k)
  }

  lemma ParseTailComplete(g1: string, index: char, f: Field)
    requires index == '1' || index == '2'
    ensures ParseTail(g1 + "." + [index] + "." + FieldName(f)) == Some((g1, index, f))
  {
    var rest := g1 + "." + [index] + ".";
    FieldAtEndComplete(rest, f);
    var body := rest + FieldName(f);
    assert body[..|body| - |FieldName(f)|] == rest;
    assert rest[..|rest| - 3] == g1;
  }

  lemma ParseLayerComplete(prefix: string, layer: string)
    requires '\n' !in prefix && |layer| > 0 && AllDigits(layer)
    ensures ParseLayer(prefix + "denselayer" + layer) == Some((prefix, layer))
  {
    var beforeDigits := prefix + "denselayer";
    var digitsEnd := beforeDigits + layer;
    assert beforeDigits[|beforeDigits| - 1] == 'r';
    TrailingDigitsAfter(beforeDigits, layer);
    assert digitsEnd[|digitsEnd| - |layer|..] == layer;
    assert digitsEnd[..|digitsEnd| - |layer|] == beforeDigits;
    assert beforeDigits[|beforeDigits| - 10..] == "denselayer";
    assert beforeDigits[..|beforeDigits| - 10] == prefix;
  }

  lemma ParseGroup1Complete(prefix: string, layer: string, st: Stage)
    requires '\n' !in prefix && |layer| > 0 && AllDigits(layer)
    ensures ParseGroup1(prefix + "denselayer" + layer + "." + StageName(st)) == Some((prefix, layer, st))
  {
    var digitsEnd := prefix + "denselayer" + layer;
    var g1 := digitsEnd + "." + StageName(st);
    assert |StageName(st)| == 4;
    StageAtEndComplete(digitsEnd, st);
    assert g1[..|g1| - 5] == digitsEnd;
    ParseLayerComplete(prefix, layer);
    assert ParseLayer(g1[..|g1| - 5]) == Some((prefix, layer));
  }

  /** Every well-formed decomposition is the one Parse finds: the pattern
      splits a matching key in exactly one way. */
  lemma ParseComplete(k: LegacyKey)
    requires WellFormed(k)
    ensures Parse(Legacy(k)) == Some(k)
  {
    var body := Group1(k) + "." + Group2(k);
    var key := Legacy(k);
    assert Group2(k) == [k.index] + "." + FieldName(k.field);
    assert body == Group1(k) + "." + [k.index] + "." + FieldName(k.field);
    if k.newline {
      assert key == body + "\n";
      assert key[..|key| - 1] == body;
    } else {
      assert key == body;
      assert body[|body| - 1] == FieldName(k.field)[|FieldName(k.field)| - 1];
    }
    assert SplitNewline(key) == (body, k.newline);
    ParseTailComplete(Group1(k), k.index, k.field);
    ParseGroup1Complete(k.prefix, k.layer, k.stage);
  }

  /** The anchored pattern matches `key` (computable form of MatchesPattern). */
  predicate IsLegacy(key: string) {
    Parse(key).Some?
  }

  lemma IsLegacyIffMatches(key: string)
    ensures IsLegacy(key) <==> MatchesPattern(key)
  {
    if MatchesPattern(key) {
      var k :| WellFormed(k) && Legacy(k) == key;
      ParseComplete(k);
    }
  }

  /** The key the source stores in place of `key`: either the key itself
      or a strictly shorter one, so a renamed key never lands on itself. */
  function RemapKey(key: string): (r: string)
    ensures r == key || |r| < |key|
  {
    match Parse(key)
    case Some(k) =>
      LegacyLonger(k);
      Modern(k)
    case None => key
  }

  /** A matching key is rewritten to the same text with the dot between the
      stage name and the sub-layer index removed (and, where Python's `$`
      matched before a final line feed, without that line feed). */
  lemma RemapMatchingKey(k: LegacyKey)
    requires WellFormed(k)
    ensures RemapKey(Legacy(k)) == Modern(k)
    ensures var g := |Group1(k)|;
      Legacy(k) == Modern(k)[..g] + "." + Modern(k)[g..] + (if k.newline then "\n" else "")
  {
    ParseComplete(k);
    var g := |Group1(k)|;
    assert Modern(k)[..g] == Group1(k);
    assert Modern(k)[g..] == Group2(k);
  }

  /** Every key the pattern does not match is kept as it is. */
  lemma RemapOtherKey(key: string)
    requires !MatchesPattern(key)
    ensures RemapKey(key) == key
  {
    IsLegacyIffMatches(key);
  }

  /** A rewritten key never matches the pattern again: the character before
      the sub-layer index is now the last letter of the stage name. */
  lemma ModernKeyNotLegacy(k: LegacyKey)
    requires WellFormed(k)
    ensures !MatchesPattern(Modern(k))
  {
    var key := Modern(k);
    var rest := Group1(k) + [k.index] + ".";
    assert key == rest + FieldName(k.field);
    assert key[|key| - 1] == FieldName(k.field)[|FieldName(k.field)| - 1];
    assert SplitNewline(key) == (key, false);
    assert rest[|rest| - 3] == StageName(k.stage)[3];
    ParseTailRejects(rest, k.field);
    assert Parse(key) == None;
    IsLegacyIffMatches(key);
  }

  /** Without a dot three characters before the field name there is no tail. */
  lemma ParseTailRejects(rest: string, f: Field)
    requires |rest| >= 3 && rest[|rest| - 3] != '.'
    ensures ParseTail(rest + FieldName(f)) == None
  {
    var body := rest + FieldName(f);
    FieldAtEndComplete(rest, f);
    assert body[..|body| - |FieldName(f)|] == rest;
  }

  /** The rewrite is idempotent on single keys. */
  lemma RemapKeyIdempotent(key: string)
    ensures !MatchesPattern(RemapKey(key))
    ensures RemapKey(RemapKey(key)) == RemapKey(key)
  {
    IsLegacyIffMatches(key);
    match Parse(key)
    case Some(k) =>
      ModernKeyNotLegacy(k);
      RemapOtherKey(Modern(k));
    case None =>
      RemapOtherKey(key);
  }

  /** The legacy form of a key is one dot (and maybe a line feed) longer. */
  lemma LegacyLonger(k: LegacyKey)
    ensures |Modern(k)| < |Legacy(k)|
  {
  }

  /** One iteration of the source's loop over a snapshot of the keys: a
      matching key's value is stored under the new key, then the old key
      is deleted. */
  function RemapStep<V>(d: map<string, V>, key: string): (r: map<string, V>)
    ensures |r| <= |d|
  {
    if key in d && IsLegacy(key) then d[RemapKey(key) := d[key]] - {key} else d
  }

  /** The loop over `order`, the snapshot `list(state_dict.keys())`. It
      never adds an entry: a rename onto a present key loses one. */
  function RemapPass<V>(d: map<string, V>, order: seq<string>): (r: map<string, V>)
    ensures |r| <= |d|
    decreases |order|
  {
    if order == [] then d
    else
      RemapPass(RemapStep(d, order[0]), order[1..])
  }

  function Image(ks: set<string>, f: string -> string): set<string> {
    set k | k in ks :: f(k)
  }

  /** The keys the rewrite produces from `keys`. */
  function RemapKeys(keys: set<string>): set<string> {
    Image(keys, RemapKey)
  }

  /** No two keys of `d` are renamed to the same key. */
  predicate RemapInjective<V>(d: map<string, V>) {
    forall a, b | a in d && b in d && RemapKey(a) == RemapKey(b) :: a == b
  }

  /** The snapshot visits every matching key of `d`. */
  predicate VisitsLegacyKeys<V>(d: map<string, V>, order: seq<string>) {
    forall k | k in d && IsLegacy(k) :: k in order
  }

  /** Replacing `key` by `m` keeps the image of a set under any `f` that
      sends both to the same element. */
  lemma MoveKeepsImage(ks: set<string>, key: string, m: string, f: string -> string)
    requires key in ks && f(key) == f(m)
    ensures Image(ks - {key} + {m}, f) == Image(ks, f)
  {
    var ks' := ks - {key} + {m};
    forall x | x in Image(ks, f) ensures x in Image(ks', f) {
      var y :| y in ks && f(y) == x;
      if y == key {
        assert m in ks';
      } else {
        assert y in ks';
      }
    }
  }

  lemma StepKeepsRenamedKeys<V>(d: map<string, V>, key: string)
    ensures RemapKeys(RemapStep(d, key).Keys) == RemapKeys(d.Keys)
  {
    if key in d && IsLegacy(key) {
      var m := RemapKey(key);
      RemapKeyIdempotent(key);
      assert RemapStep(d, key).Keys == d.Keys - {key} + {m};
      MoveKeepsImage(d.Keys, key, m, RemapKey);
    }
  }

  /** The pass never changes which keys the rewrite would produce. */
  lemma {:induction false} PassKeepsRenamedKeys<V>(d: map<string, V>, order: seq<string>)
    ensures RemapKeys(RemapPass(d, order).Keys) == RemapKeys(d.Keys)
    decreases |order|
  {
    if order != [] {
      StepKeepsRenamedKeys(d, order[0]);
      PassKeepsRenamedKeys(RemapStep(d, order[0]), order[1..]);
    }
  }

  /** After a pass that visits every matching key, no key matches. */
  lemma {:induction false} PassClearsLegacyKeys<V>(d: map<string, V>, order: seq<string>)
    requires VisitsLegacyKeys(d, order)
    ensures forall k | k in RemapPass(d, order) :: !IsLegacy(k)
    decreases |order|
  {
    if order != [] {
      var key := order[0];
      var d' := RemapStep(d, key);
      RemapKeyIdempotent(key);
      IsLegacyIffMatches(RemapKey(key));
      forall k | k in d' && IsLegacy(k) ensures k in order[1..] {
        assert k in d && k != key;
        assert k in order;
      }
      PassClearsLegacyKeys(d', order[1..]);
    }
  }

  lemma NoLegacyKeysRenamed<V>(d: map<string, V>)
    requires forall k | k in d :: !IsLegacy(k)
    ensures RemapKeys(d.Keys) == d.Keys
  {
    forall k | k in d ensures RemapKey(k) == k {
    }
    assert forall x | x in RemapKeys(d.Keys) :: x in d.Keys;
    assert forall x | x in d.Keys :: RemapKey(x) in RemapKeys(d.Keys);
  }

  /** The key set after the pass is the image of the original key set under
      the single-key rewrite, even when two keys collide. */
  lemma PassKeys<V>(d: map<string, V>, order: seq<string>)
    requires VisitsLegacyKeys(d, order)
    ensures RemapPass(d, order).Keys == RemapKeys(d.Keys)
  {
    PassKeepsRenamedKeys(d, order);
    PassClearsLegacyKeys(d, order);
    NoLegacyKeysRenamed(RemapPass(d, order));
  }

  lemma StepKeepsInjective<V>(d: map<string, V>, key: string)
    requires RemapInjective(d)
    ensures RemapInjective(RemapStep(d, key))
  {
    if key in d && IsLegacy(key) {
      var m := RemapKey(key);
      RemapKeyIdempotent(key);
      var d' := RemapStep(d, key);
      forall a, b | a in d' && b in d' && RemapKey(a) == RemapKey(b) ensures a == b {
        var a0 := if a == m then key else a;
        var b0 := if b == m then key else b;
        assert a0 in d && b0 in d && RemapKey(a0) == RemapKey(b0);
      }
    }
  }

  /** Where the value stored under `k` sits after one step, without collisions. */
  lemma StepMovesValue<V>(d: map<string, V>, key: string, k: string)
    requires RemapInjective(d)
    requires k in d
    ensures var k' := if k == key && IsLegacy(key) then RemapKey(key) else k;
      k' in RemapStep(d, key) && RemapKey(k') == RemapKey(k) && RemapStep(d, key)[k'] == d[k]
  {
    RemapKeyIdempotent(key);
    if key in d && IsLegacy(key) {
      assert RemapKey(RemapKey(key)) == RemapKey(key);
    }
  }

  /** Without collisions every value survives under its rewritten key. */
  lemma {:induction false} PassValues<V>(d: map<string, V>, order: seq<string>)
    requires RemapInjective(d)
    requires VisitsLegacyKeys(d, order)
    ensures forall k | k in d :: RemapKey(k) in RemapPass(d, order)
    ensures forall k | k in d :: RemapPass(d, order)[RemapKey(k)] == d[k]
    decreases |order|
  {
    if order == [] {
      forall k | k in d ensures RemapKey(k) == k {
        assert k !in order;
      }
    } else {
      var key := order[0];
      var d' := RemapStep(d, key);
      StepKeepsInjective(d, key);
      RemapKeyIdempotent(key);
      IsLegacyIffMatches(RemapKey(key));
      forall k | k in d' && IsLegacy(k) ensures k in order[1..] {
        assert k in d && k != key;
        assert k in order;
      }
      PassValues(d', order[1..]);
      forall k | k in d ensures RemapKey(k) in RemapPass(d, order) && RemapPass(d, order)[RemapKey(k)] == d[k] {
        StepMovesValue(d, key, k);
      }
    }
  }

  lemma {:induction false} PassWithoutLegacyKeys<V>(d: map<string, V>, order: seq<string>)
    requires forall k | k in d :: !IsLegacy(k)
    ensures RemapPass(d, order) == d
    decreases |order|
  {
    if order != [] {
      PassWithoutLegacyKeys(d, order[1..]);
    }
  }

  /** Running the pass a second time, over any snapshot, changes nothing. */
  lemma PassIdempotent<V>(d: map<string, V>, order: seq<string>, order2: seq<string>)
    requires VisitsLegacyKeys(d, order)
    ensures RemapPass(RemapPass(d, order), order2) == RemapPass(d, order)
  {
    PassClearsLegacyKeys(d, order);
    PassWithoutLegacyKeys(RemapPass(d, order), order2);
  }

  /** Without injectivity a value can be lost: when the rewritten name is
      already a key, the legacy entry's value overwrites it, in either
      snapshot order. */
  lemma CollisionOverwrites<V>(k: LegacyKey, x: V, y: V)
    requires WellFormed(k)
    ensures RemapPass(map[Legacy(k) := x, Modern(k) := y], [Legacy(k), Modern(k)])
            == map[Modern(k) := x]
    ensures RemapPass(map[Legacy(k) := x, Modern(k) := y], [Modern(k), Legacy(k)])
            == map[Modern(k) := x]
  {
    RemapMatchingKey(k);
    ModernKeyNotLegacy(k);
    IsLegacyIffMatches(Legacy(k));
    IsLegacyIffMatches(Modern(k));
    LegacyLonger(k);
    CollidingPair(Legacy(k), Modern(k), x, y);
  }

  /** The collision on two opaque keys: `a` matches and is renamed to `b`,
      which does not match. */
  lemma CollidingPair<V>(a: string, b: string, x: V, y: V)
    requires IsLegacy(a) && !IsLegacy(b) && RemapKey(a) == b && a != b
    ensures RemapPass(map[a := x, b := y], [a, b]) == map[b := x]
    ensures RemapPass(map[a := x, b := y], [b, a]) == map[b := x]
  {
    var d := map[a := x, b := y];
    CollidingSteps(a, b, x, y);
    assert RemapPass(d, [a, b]) == RemapPass(map[b := x], [b]) by {
      assert [a, b][1..] == [b];
    }
    assert RemapPass(map[b := x], [b]) == map[b := x] by {
      assert [b][1..] == [];
    }
    assert RemapPass(d, [b, a]) == RemapPass(d, [a]) by {
      assert [b, a][1..] == [a];
    }
    assert RemapPass(d, [a]) == map[b := x] by {
      assert [a][1..] == [];
    }
  }

  lemma CollidingSteps<V>(a: string, b: string, x: V, y: V)
    requires IsLegacy(a) && !IsLegacy(b) && RemapKey(a) == b && a != b
    ensures RemapStep(map[a := x, b := y], a) == map[b := x]
    ensures RemapStep(map[b := x], b) == map[b := x]
    ensures RemapStep(map[a := x, b := y], b) == map[a := x, b := y]
  {
    var d := map[a := x, b := y];
    assert a in d && d[a] == x;
    assert RemapStep(d, a) == d[b := x] - {a};
    OverwriteAndDelete(a, b, x, y);
  }

  lemma OverwriteAndDelete<V>(a: string, b: string, x: V, y: V)
    requires a != b
    ensures map[a := x, b := y][b := x] - {a} == map[b := x]
  {
    var m := map[a := x, b := y][b := x] - {a};
    assert m.Keys == {b};
  }
}

=== FILE: metrics.dfy ===
/** The per-phase loss and accuracy: running sums over the batches divided
    by the number of examples in the split. The tensor engine is abstracted:
    each batch is reported as its size, its number of correct predictions
    and its mean loss. */
module Metrics {
  import opened Wrappers
  import opened Errors

  datatype Batch = Batch(size: nat, correct: nat, loss: real)

  datatype PhaseMetrics = PhaseMetrics(loss: real, accuracy: real)

  /** `running_loss`: the sum of `loss * batch size`. */
  function RunningLoss(batches: seq<Batch>): real {
    if batches == [] then 0.0
    else RunningLoss(batches[..|batches| - 1])
         + batches[|batches| - 1].loss * batches[|batches| - 1].size as real
  }

  /** `running_corrects`: the number of matching predictions. */
  function RunningCorrects(batches: seq<Batch>): nat {
    if batches == [] then 0
    else RunningCorrects(batches[..|batches| - 1]) + batches[|batches| - 1].correct
  }

  function TotalSize(batches: seq<Batch>): nat {
    if batches == [] then 0
    else TotalSize(batches[..|batches| - 1]) + batches[|batches| - 1].size
  }

  /** What a data loader guarantees: the batches cover the split exactly
      once and no batch has more correct predictions than examples. */
  predicate CoversSplit(batches: seq<Batch>, splitSize: nat) {
    && TotalSize(batches) == splitSize
    && forall i | 0 <= i < |batches| :: batches[i].correct <= batches[i].size
  }

  /** The epoch loss and accuracy of one phase. An empty split divides the
      float 0.0 by zero; a split that yielded no batch leaves the running
      count a plain int, which has no `.double()`. */
  function PhaseResult(batches: seq<Batch>, splitSize: nat): (r: Result<PhaseMetrics, Error>)
    ensures r.Success? <==> splitSize > 0 && batches != []
    ensures splitSize == 0 ==> r == Failure(DivisionByZero)
  {
    if splitSize == 0 then Failure(DivisionByZero)
    else if batches == [] then Failure(NoBatches)
    else Success(PhaseMetrics(RunningLoss(batches) / splitSize as real,
                              RunningCorrects(batches) as real / splitSize as real))
  }

  lemma {:induction false} CorrectsAtMostSize(batches: seq<Batch>)
    requires forall i | 0 <= i < |batches| :: batches[i].correct <= batches[i].size
    ensures RunningCorrects(batches) <= TotalSize(batches)
  {
    if batches != [] {
      CorrectsAtMostSize(batches[..|batches| - 1]);
    }
  }

  /** Accuracy is a running count divided by the split size, not by the
      number of batches, so it always lies in [0, 1]. */
  lemma AccuracyInUnitInterval(batches: seq<Batch>, splitSize: nat)
    requires CoversSplit(batches, splitSize) && splitSize > 0
    ensures PhaseResult(batches, splitSize).Success?
    ensures 0.0 <= PhaseResult(batches, splitSize).value.accuracy <= 1.0
  {
    CorrectsAtMostSize(batches);
  }
}

=== FILE: model_adapter.dfy ===
/** Model surgery: loading transfer-learning weights (with the DenseNet-121
    key rewrite), freezing, and replacing the final linear layer so that it
    has one output per class. Tensors are abstracted: a parameter is a name
    and a trainable flag, a linear layer is its two widths and a flag. */
module ModelAdapter {
  import opened Wrappers
  import opened Errors
  import opened Strings
  import KeyRemap

  /** The four backbones the trainer can be set to. */
  datatype Arch = MobileNetV2 | ResNet50 | InceptionV3 | DenseNet121

  /** The model-type string each setter stores. */
  function ArchName(a: Arch): string {
    match a
    case MobileNetV2 => "mobilenet_v2"
    case ResNet50 => "resnet50"
    case InceptionV3 => "inception_v3"
    case DenseNet121 => "densenet121"
  }

  /** Where a backbone keeps a final linear layer: `classifier[i]`,
      `classifier` or `fc`. */
  datatype HeadSlot = ClassifierItem(index: nat) | Classifier | Fc

  /** The state-dict prefix of a slot. */
  function SlotPath(s: HeadSlot): string {
    match s
    case ClassifierItem(i) => "classifier." + NatToString(i)
    case Classifier => "classifier"
    case Fc => "fc"
  }

  /** The slot the source replaces for each architecture. */
  function HeadSlotOf(a: Arch): HeadSlot {
    match a
    case MobileNetV2 => ClassifierItem(1)
    case DenseNet121 => Classifier
    case _ => Fc
  }

  datatype Param = Param(name: string, trainable: bool)

  datatype Linear = Linear(inFeatures: nat, outFeatures: nat, trainable: bool)

  /** A network: every state-dict entry outside the linear heads, and the
      heads by slot. `params` holds the buffers as well (`running_mean`,
      `running_var`, `num_batches_tracked`), so that its names are the
      non-head keys of `state_dict()`; a buffer's `trainable` flag carries
      no meaning, since only `parameters()` are ever frozen or optimised. */
  datatype Net = Net(params: seq<Param>, heads: map<HeadSlot, Linear>)

  /** The transfer-learning mode the two setters choose between. */
  datatype Mode = FreezeAll | FineTuneAll

  predicate AllTrainable(net: Net) {
    && (forall i | 0 <= i < |net.params| :: net.params[i].trainable)
    && (forall s | s in net.heads :: net.heads[s].trainable)
  }

  /** The keys of `net.state_dict()`. */
  function StateKeys(net: Net): set<string> {
    (set p | p in net.params :: p.name)
    + (set s | s in net.heads :: SlotPath(s) + ".weight")
    + (set s | s in net.heads :: SlotPath(s) + ".bias")
  }

  /** The strict `load_state_dict`: every key must be expected and every
      expected key present. Tensor values and shapes are not modelled, so
      a successful load leaves the abstract network as it is. */
  function LoadStateDict<V>(net: Net, stateDict: map<string, V>): (r: Result<Net, Error>)
    ensures r.Success? <==> stateDict.Keys == StateKeys(net)
    ensures r.Success? ==> r.value == net
  {
    if stateDict.Keys == StateKeys(net) then Success(net) else Failure(StateDictMismatch)
  }

  /** Sets `requires_grad = False` on every parameter. Buffers are cleared
      too, which is harmless because their flag means nothing. */
  function Freeze(net: Net): (r: Net)
    ensures |r.params| == |net.params|
    ensures forall i | 0 <= i < |r.params| ::
      r.params[i].name == net.params[i].name && !r.params[i].trainable
    ensures r.heads.Keys == net.heads.Keys
    ensures forall s | s in r.heads ::
      r.heads[s] == net.heads[s].(trainable := false)
  {
    Net(seq(|net.params|, i requires 0 <= i < |net.params| => net.params[i].(trainable := false)),
        map s | s in net.heads :: net.heads[s].(trainable := false))
  }

  /** Installs a fresh, trainable linear layer with the old input width and
      `classCount` outputs in the architecture's slot; a backbone without
      that attribute raises. */
  function ReplaceHead(arch: Arch, net: Net, classCount: nat): (r: Result<Net, Error>)
    ensures r.Success? <==> HeadSlotOf(arch) in net.heads
    ensures r.Failure? ==> r.error == MissingHead
    ensures r.Success? ==> r.value.params == net.params
    ensures r.Success? ==> r.value.heads.Keys == net.heads.Keys
    ensures r.Success? ==>
      r.value.heads[HeadSlotOf(arch)] == Linear(net.heads[HeadSlotOf(arch)].inFeatures, classCount, true)
    ensures r.Success? ==> forall s | s in net.heads && s != HeadSlotOf(arch) ::
      r.value.heads[s] == net.heads[s]
  {
    var slot := HeadSlotOf(arch);
    if slot !in net.heads then Failure(MissingHead)
    else Success(net.(heads := net.heads[slot := Linear(net.heads[slot].inFeatures, classCount, true)]))
  }

  /** The state dict the load receives: rewritten only for DenseNet-121. */
  function TransferStateDict<V>(arch: Arch, stateDict: map<string, V>, order: seq<string>): map<string, V> {
    if arch == DenseNet121 then KeyRemap.RemapPass(stateDict, order) else stateDict
  }

  /** `__set_transfer_learning_mode`: load the (rewritten) checkpoint, then
      freeze every parameter when the mode is freeze-all. */
  function TransferLearning<V>(arch: Arch, mode: Mode, net: Net,
                               stateDict: map<string, V>, order: seq<string>): (r: Result<Net, Error>)
    ensures r.Success? <==> TransferStateDict(arch, stateDict, order).Keys == StateKeys(net)
    ensures r.Failure? ==> r.error == StateDictMismatch
    ensures r.Success? ==>
      && |r.value.params| == |net.params|
      && (forall i | 0 <= i < |r.value.params| ::
            && r.value.params[i].name == net.params[i].name
            && r.value.params[i].trainable == (net.params[i].trainable && mode != FreezeAll))
      && r.value.heads.Keys == net.heads.Keys
      && (forall s | s in r.value.heads ::
            r.value.heads[s] == net.heads[s].(trainable := net.heads[s].trainable && mode != FreezeAll))
  {
    match LoadStateDict(net, TransferStateDict(arch, stateDict, order))
    case Failure(e) => Failure(e)
    case Success(loaded) => Success(if mode == FreezeAll then Freeze(loaded) else loaded)
  }

  /** The network part of `__set_training_param`: transfer learning (when a
      checkpoint path is set) strictly before the head is replaced. It fails
      when the strict load rejects the (rewritten) checkpoint, or when the
      backbone lacks the slot to replace. */
  function ConfigureNet<V>(arch: Arch, backbone: Net, transfer: bool, mode: Mode,
                           stateDict: map<string, V>, order: seq<string>,
                           classCount: nat): (r: Result<Net, Error>)
    ensures r.Success?
        <==> (!transfer || TransferStateDict(arch, stateDict, order).Keys == StateKeys(backbone))
             && HeadSlotOf(arch) in backbone.heads
    ensures r == Failure(StateDictMismatch)
        <==> transfer && TransferStateDict(arch, stateDict, order).Keys != StateKeys(backbone)
    ensures r.Failure? ==> r.error == StateDictMismatch || r.error == MissingHead
  {
    if transfer then
      match TransferLearning(arch, mode, backbone, stateDict, order)
      case Failure(e) => Failure(e)
      case Success(net) => ReplaceHead(arch, net, classCount)
    else ReplaceHead(arch, backbone, classCount)
  }

  /** Only a DenseNet-121 checkpoint is rewritten, and then its key set
      becomes the image of the single-key rewrite. */
  lemma TransferKeys<V>(arch: Arch, stateDict: map<string, V>, order: seq<string>)
    requires KeyRemap.VisitsLegacyKeys(stateDict, order)
    ensures arch == DenseNet121 ==>
      TransferStateDict(arch, stateDict, order).Keys == KeyRemap.RemapKeys(stateDict.Keys)
    ensures arch != DenseNet121 ==> TransferStateDict(arch, stateDict, order) == stateDict
  {
    KeyRemap.PassKeys(stateDict, order);
  }

  /** The new head has the old input width, one output per class and is
      trainable; every other parameter keeps its flag unless a checkpoint
      was loaded in freeze-all mode, which clears it, because the load and
      the freeze happen before the head is replaced. A parameter frozen by
      an earlier call therefore stays frozen. */
  lemma ConfigureNetTrainable<V>(arch: Arch, backbone: Net, transfer: bool, mode: Mode,
                                 stateDict: map<string, V>, order: seq<string>, classCount: nat)
    requires ConfigureNet(arch, backbone, transfer, mode, stateDict, order, classCount).Success?
    ensures var r := ConfigureNet(arch, backbone, transfer, mode, stateDict, order, classCount).value;
      var frozen := transfer && mode == FreezeAll;
      && |r.params| == |backbone.params|
      && (forall i | 0 <= i < |r.params| ::
            && r.params[i].name == backbone.params[i].name
            && r.params[i].trainable == (backbone.params[i].trainable && !frozen))
      && r.heads.Keys == backbone.heads.Keys
      && r.heads[HeadSlotOf(arch)]
         == Linear(backbone.heads[HeadSlotOf(arch)].inFeatures, classCount, true)
      && (forall s | s in r.heads && s != HeadSlotOf(arch) ::
            r.heads[s] == backbone.heads[s].(trainable := backbone.heads[s].trainable && !frozen))
  {
    if transfer {
      var loaded := TransferLearning(arch, mode, backbone, stateDict, order).value;
      assert ConfigureNet(arch, backbone, transfer, mode, stateDict, order, classCount)
          == ReplaceHead(arch, loaded, classCount);
    }
  }
}

=== FILE: paths.dfy ===
/** The dataset name: the last component of the data directory, ignoring
    trailing separators, as `os.path.basename(data_dir.rstrip(os.path.sep))`
    computes it with the POSIX separator '/'. */
module Paths {
  import opened Strings

  /** A string of `n` separators. */
  function Slashes(n: nat): (r: string)
    ensures |r| == n && forall i | 0 <= i < n :: r[i] == '/'
  {
    seq(n, _ => '/')
  }

  /** `s.rstrip('/')`: the longest prefix of `s` that does not end in '/'. */
  function RStripSlashes(s: string): (r: string)
    ensures |r| <= |s| && r == s[..|r|]
    ensures |r| == 0 || r[|r| - 1] != '/'
    ensures forall i | |r| <= i < |s| :: s[i] == '/'
  {
    if |s| > 0 && s[|s| - 1] == '/' then RStripSlashes(s[..|s| - 1]) else s
  }

  /** The length of the text after the last '/' of `p`. */
  function LastComponentLength(p: string): (k: nat)
    ensures k <= |p|
    ensures forall i | |p| - k <= i < |p| :: p[i] != '/'
    ensures k < |p| ==> p[|p| - k - 1] == '/'
  {
    if |p| == 0 || p[|p| - 1] == '/' then 0 else LastComponentLength(p[..|p| - 1]) + 1
  }

  /** `os.path.basename`: everything after the last '/'. */
  function Basename(p: string): (r: string)
    ensures '/' !in r
    ensures EndsWith(p, r)
    ensures |r| < |p| ==> p[|p| - |r| - 1] == '/'
  {
    p[|p| - LastComponentLength(p)..]
  }

  function DatasetName(dataDir: string): (r: string)
    ensures '/' !in r
  {
    Basename(RStripSlashes(dataDir))
  }

  lemma {:induction false} RStripIgnoresTrailingSlashes(s: string, n: nat)
    ensures RStripSlashes(s + Slashes(n)) == RStripSlashes(s)
  {
    if n > 0 {
      var t := s + Slashes(n);
      assert t[..|t| - 1] == s + Slashes(n - 1);
      RStripIgnoresTrailingSlashes(s, n - 1);
    } else {
      assert s + Slashes(0) == s;
    }
  }

  /** Appending separators to the data directory does not change the name. */
  lemma DatasetNameIgnoresTrailingSlashes(dataDir: string, n: nat)
    ensures DatasetName(dataDir + Slashes(n)) == DatasetName(dataDir)
  {
    RStripIgnoresTrailingSlashes(dataDir, n);
  }

  /** A slash-free name is its own basename, and after a separator it is
      the basename of the whole path. */
  lemma BasenameOfComponent(parent: string, name: string)
    requires '/' !in name
    ensures Basename(name) == name
    ensures Basename(parent + "/" + name) == name
  {
    assert forall i | 0 <= i < |name| :: name[i] != '/';
    var p := parent + "/" + name;
    assert p[|p| - |name|..] == name;
    assert p[|p| - |name| - 1] == '/';
  }

  /** The name of `parent/name/` (any number of trailing separators) is
      `name`, and so is the name of the relative path `name/`. */
  lemma DatasetNameOfPath(parent: string, name: string, n: nat)
    requires name != "" && '/' !in name
    ensures DatasetName(parent + "/" + name + Slashes(n)) == name
    ensures DatasetName(name + Slashes(n)) == name
  {
    DatasetNameIgnoresTrailingSlashes(parent + "/" + name, n);
    DatasetNameIgnoresTrailingSlashes(name, n);
    BasenameOfComponent(parent, name);
    assert RStripSlashes(name) == name;
    var p := parent + "/" + name;
    assert p[|p| - 1] == name[|name| - 1];
    assert RStripSlashes(p) == p;
  }
}

=== FILE: sorting.dfy ===
/** Python's `sorted` on a list of strings: code-point lexicographic order,
    where a proper prefix sorts first. */
module Sorting {

  predicate LexLe(a: string, b: string) {
    |a| == 0 || (|b| > 0 && (a[0] < b[0] || (a[0] == b[0] && LexLe(a[1..], b[1..]))))
  }

  lemma {:induction false} LexLeReflexive(a: string)
    ensures LexLe(a, a)
  {
    if |a| > 0 {
      LexLeReflexive(a[1..]);
    }
  }

  lemma {:induction false} LexLeAntisymmetric(a: string, b: string)
    requires LexLe(a, b) && LexLe(b, a)
    ensures a == b
  {
    if |a| > 0 && |b| > 0 {
      LexLeAntisymmetric(a[1..], b[1..]);
      assert a == [a[0]] + a[1..];
      assert b == [b[0]] + b[1..];
    }
  }

  lemma {:induction false} LexLeTransitive(a: string, b: string, c: string)
    requires LexLe(a, b) && LexLe(b, c)
    ensures LexLe(a, c)
  {
    if |a| > 0 && |b| > 0 && |c| > 0 && a[0] == b[0] == c[0] {
      LexLeTransitive(a[1..], b[1..], c[1..]);
    }
  }

  lemma {:induction false} LexLeTotal(a: string, b: string)
    ensures LexLe(a, b) || LexLe(b, a)
  {
    if |a| > 0 && |b| > 0 && a[0] == b[0] {
      LexLeTotal(a[1..], b[1..]);
    }
  }

  predicate Sorted(s: seq<string>) {
    forall i, j | 0 <= i < j < |s| :: LexLe(s[i], s[j])
  }

  /** Prepending an element no larger than every element keeps a sequence sorted. */
  lemma ConsSorted(h: string, t: seq<string>)
    requires Sorted(t)
    requires forall j | 0 <= j < |t| :: LexLe(h, t[j])
    ensures Sorted([h] + t)
  {
  }

  /** The head of a sorted sequence is below every element of its tail with
      `x` inserted, when it is below `x`. */
  lemma HeadBelowInsert(x: string, s: seq<string>, t: seq<string>)
    requires Sorted(s) && |s| > 0 && LexLe(s[0], x)
    requires multiset(t) == multiset(s[1..]) + multiset{x}
    ensures forall j | 0 <= j < |t| :: LexLe(s[0], t[j])
  {
    forall j | 0 <= j < |t| ensures LexLe(s[0], t[j]) {
      assert t[j] in multiset(t);
      if t[j] != x {
        assert t[j] in multiset(s[1..]);
        var i :| 0 <= i < |s[1..]| && s[1..][i] == t[j];
        assert s[i + 1] == t[j];
      }
    }
  }

  /** Inserts `x` into the sorted sequence `s` before its first larger element. */
  function Insert(x: string, s: seq<string>): (r: seq<string>)
    requires Sorted(s)
    ensures Sorted(r)
    ensures |r| == |s| + 1
    ensures multiset(r) == multiset(s) + multiset{x}
  {
    if s == [] then [x]
    else if LexLe(x, s[0]) then
      assert forall j | 0 <= j < |s| :: LexLe(x, s[j]) by {
        forall j | 0 <= j < |s| ensures LexLe(x, s[j]) {
          if j > 0 {
            LexLeTransitive(x, s[0], s[j]);
          }
        }
      }
      ConsSorted(x, s);
      [x] + s
    else
      LexLeTotal(x, s[0]);
      var t := Insert(x, s[1..]);
      assert s == [s[0]] + s[1..];
      HeadBelowInsert(x, s, t);
      ConsSorted(s[0], t);
      [s[0]] + t
  }

  /** Insertion sort: a sorted permutation of the input. */
  function Sort(s: seq<string>): (r: seq<string>)
    ensures Sorted(r)
    ensures |r| == |s|
    ensures multiset(r) == multiset(s)
  {
    if s == [] then []
    else
      assert s == [s[0]] + s[1..];
      Insert(s[0], Sort(s[1..]))
  }

  /** The least element of a sorted sequence sits at its head. */
  lemma HeadIsLeast(a: seq<string>, x: string)
    requires Sorted(a) && x in multiset(a)
    ensures |a| > 0 && LexLe(a[0], x)
  {
    var i :| 0 <= i < |a| && a[i] == x;
    if i == 0 {
      LexLeReflexive(x);
    }
  }

  lemma TailMultiset(a: seq<string>)
    requires |a| > 0
    ensures multiset(a[1..]) == multiset(a) - multiset{a[0]}
  {
    assert a == [a[0]] + a[1..];
  }

  /** Two sorted sequences holding the same elements are equal. */
  lemma {:induction false} SortedUnique(a: seq<string>, b: seq<string>)
    requires Sorted(a) && Sorted(b)
    requires multiset(a) == multiset(b)
    ensures a == b
  {
    if a != [] {
      assert a[0] in multiset(a);
      HeadIsLeast(b, a[0]);
      assert b[0] in multiset(b);
      HeadIsLeast(a, b[0]);
      LexLeAntisymmetric(a[0], b[0]);
      TailMultiset(a);
      TailMultiset(b);
      SortedUnique(a[1..], b[1..]);
      assert a == [a[0]] + a[1..];
      assert b == [b[0]] + b[1..];
    } else {
      assert |multiset(b)| == 0;
    }
  }

  /** Every element of the sorted list is one of the input's elements. */
  lemma SortKeepsElements(s: seq<string>, i: int)
    requires 0 <= i < |s|
    ensures Sort(s)[i] in s
  {
    assert Sort(s)[i] in multiset(Sort(s));
  }

  /** Sorting depends only on which elements the input holds, not on their order. */
  lemma SortPermutationInvariant(a: seq<string>, b: seq<string>)
    requires multiset(a) == multiset(b)
    ensures Sort(a) == Sort(b)
  {
    SortedUnique(Sort(a), Sort(b));
  }
}

=== FILE: strings.dfy ===
/** Character and decimal helpers shared by the key remapping, the class
    mapping and the checkpoint names. */
module Strings {

  predicate IsDigit(c: char) {
    '0' <= c <= '9'
  }

  predicate AllDigits(s: string) {
    forall i | 0 <= i < |s| :: IsDigit(s[i])
  }

  predicate EndsWith(s: string, suffix: string) {
    |suffix| <= |s| && s[|s| - |suffix|..] == suffix
  }

  function DigitChar(d: nat): (c: char)
    requires d < 10
    ensures IsDigit(c)
  {
    (('0' as int) + d) as char
  }

  function DigitValue(c: char): (d: nat)
    requires IsDigit(c)
    ensures d < 10
  {
    (c as int) - ('0' as int)
  }

  /** The decimal text of `n`, as Python's `str` writes a non-negative int. */
  function NatToString(n: nat): (s: string)
    ensures |s| > 0 && AllDigits(s)
    ensures |s| > 1 ==> s[0] != '0'
  {
    if n < 10 then [DigitChar(n)] else NatToString(n / 10) + [DigitChar(n % 10)]
  }

  /** The number a string of decimal digits denotes. */
  function DecimalValue(s: string): nat
    requires AllDigits(s)
  {
    if s == [] then 0 else DecimalValue(s[..|s| - 1]) * 10 + DigitValue(s[|s| - 1])
  }

  /** Reading back the decimal text of `n` gives `n`. */
  lemma {:induction false} DecimalRoundTrip(n: nat)
    ensures DecimalValue(NatToString(n)) == n
  {
    var s := NatToString(n);
    if n >= 10 {
      DecimalRoundTrip(n / 10);
      assert s[..|s| - 1] == NatToString(n / 10);
      assert DigitValue(s[|s| - 1]) == n % 10;
    } else {
      assert DigitValue(s[0]) == n;
    }
  }

  /** Distinct numbers have distinct decimal texts. */
  lemma NatToStringInjective(m: nat, n: nat)
    requires NatToString(m) == NatToString(n)
    ensures m == n
  {
    DecimalRoundTrip(m);
    DecimalRoundTrip(n);
  }

  lemma EndsWithConcat(a: string, w: string)
    ensures EndsWith(a + w, w)
    ensures |w| > 0 ==> (a + w)[|a + w| - 1] == w[|w| - 1]
  {
    assert (a + w)[|a + w| - |w|..] == w;
  }

  /** A text ending with a non-empty suffix ends with that suffix's last
      character. */
  lemma EndsWithLast(s: string, suffix: string)
    requires EndsWith(s, suffix) && |suffix| > 0
    ensures s[|s| - 1] == suffix[|suffix| - 1]
  {
    assert s[|s| - 1] == s[|s| - |suffix|..][|suffix| - 1];
  }

  /** The length of the longest all-digit suffix of `s`. */
  function TrailingDigits(s: string): (k: nat)
    ensures k <= |s|
    ensures AllDigits(s[|s| - k..])
    ensures k < |s| ==> !IsDigit(s[|s| - k - 1])
  {
    if s == [] || !IsDigit(s[|s| - 1]) then 0
    else
      var k := TrailingDigits(s[..|s| - 1]);
      DigitSuffixGrows(s, k);
      k + 1
  }

  /** A digit run ending just before a final digit extends by that digit. */
  lemma DigitSuffixGrows(s: string, k: nat)
    requires |s| > 0 && k < |s| && IsDigit(s[|s| - 1])
    requires AllDigits(s[..|s| - 1][|s| - 1 - k..])
    ensures AllDigits(s[|s| - (k + 1)..])
  {
    assert s[|s| - (k + 1)..] == s[..|s| - 1][|s| - 1 - k..] + [s[|s| - 1]];
  }

  /** A digit run that follows a non-digit is exactly the trailing digit run. */
  lemma TrailingDigitsAfter(a: string, d: string)
    requires |a| > 0 && !IsDigit(a[|a| - 1])
    requires AllDigits(d)
    ensures TrailingDigits(a + d) == |d|
  {
    var s := a + d;
    assert s[|s| - |d|..] == d;
    assert s[|s| - |d| - 1] == a[|a| - 1];
  }
}

=== FILE: trainer.dfy ===
/** The trainer object: its setters, and `trainModel` as one function from
    the trainer's fields and what its collaborators return (the image
    folders, the loaded checkpoint, the per-batch results of the tensor
    engine, the files already in the model directory) to the fields after
    the call and either the run's report or the exception it raised. */
module Trainer {
  import opened Wrappers
  import opened Errors
  import opened Paths
  import opened ClassIndex
  import opened ModelAdapter
  import opened Metrics
  import opened Checkpoints
  import opened Strings
  import KeyRemap

  /** A tensor of a loaded state dict; its values play no part here. */
  datatype Tensor = Tensor(values: seq<real>)

  /** The training parameters of one architecture, reduced to what the
      trainer branches on: the backbone and the optional step-decay
      settings (None stands for an entry whose value is None). */
  datatype Profile = Profile(backbone: Net, lrDecayRate: Option<real>, lrStepSize: Option<int>)

  /** `if lr_decay_rate and lr_step_size`: both present and non-zero. */
  predicate HasStepDecay(p: Profile) {
    && p.lrDecayRate.Some? && p.lrDecayRate.value != 0.0
    && p.lrStepSize.Some? && p.lrStepSize.value != 0
  }

  datatype Selection = Selection(arch: Arch, profile: Profile)

  /** The fields that outlive a call: the model type with its parameters
      (None while unset), the data directory ("" while unset), the transfer
      mode, the transfer checkpoint path ("" while unset), and whether a
      step-decay scheduler has been created. */
  datatype Trainer = Trainer(
    model: Option<Selection>, dataDir: string, mode: Mode, modelPath: string, hasScheduler: bool)

  /** The trainer `__init__` builds: nothing chosen, fine-tune-all mode. */
  function NewTrainer(): Trainer {
    Trainer(None, "", FineTuneAll, "", false)
  }

  /** `setModelAsMobileNetV2` and its three siblings: the model type and
      its training parameters are replaced, nothing else. */
  function SetModel(t: Trainer, arch: Arch, profile: Profile): (r: Trainer)
    ensures r.model.Some? && r.model.value.arch == arch && r.model.value.profile == profile
    ensures r.dataDir == t.dataDir && r.mode == t.mode && r.modelPath == t.modelPath
    ensures r.hasScheduler == t.hasScheduler
  {
    t.(model := Some(Selection(arch, profile)))
  }

  /** `freezeAllLayers`: only the transfer mode changes. */
  function FreezeAllLayers(t: Trainer): (r: Trainer)
    ensures r.mode == FreezeAll
    ensures r.model == t.model && r.dataDir == t.dataDir && r.modelPath == t.modelPath
    ensures r.hasScheduler == t.hasScheduler
  {
    t.(mode := FreezeAll)
  }

  /** `fineTuneAllLayers`: only the transfer mode changes. */
  function FineTuneAllLayers(t: Trainer): (r: Trainer)
    ensures r.mode == FineTuneAll
    ensures r.model == t.model && r.dataDir == t.dataDir && r.modelPath == t.modelPath
    ensures r.hasScheduler == t.hasScheduler
  {
    t.(mode := FineTuneAll)
  }

  /** The setters only record choices: the last model choice and the last
      mode choice win, whatever came before. */
  lemma LastSetterWins(t: Trainer, a1: Arch, p1: Profile, a2: Arch, p2: Profile)
    ensures SetModel(SetModel(t, a1, p1), a2, p2) == SetModel(t, a2, p2)
    ensures FreezeAllLayers(FineTuneAllLayers(t)) == FreezeAllLayers(t)
    ensures FineTuneAllLayers(FreezeAllLayers(t)) == FineTuneAllLayers(t)
  {
  }

  /** `setDataDirectory`: `directories` stands for `os.path.isdir`, which is
      false for the empty path. On failure the caller's trainer is unchanged. */
  function SetDataDirectory(t: Trainer, path: string, directories: set<string>): (r: Result<Trainer, Error>)
    ensures r.Success? <==> path != "" && path in directories
    ensures r.Success? ==> r.value == t.(dataDir := path) && r.value.dataDir != ""
    ensures r.Failure? ==> r.error == NotADirectory
  {
    if path != "" && path in directories then Success(t.(dataDir := path)) else Failure(NotADirectory)
  }

  datatype Phase = Train | Test

  /** What the collaborators supply to one `trainModel` call. */
  datatype Environment = Environment(
    classes: seq<string>,                 // ImageFolder(<dir>/train).classes
    trainSize: nat,                       // len(ImageFolder(<dir>/train))
    testSize: nat,                        // len(ImageFolder(<dir>/test))
    checkpoint: map<string, Tensor>,      // torch.load(<transfer path>)
    checkpointOrder: seq<string>,         // list(state_dict.keys()), see ListsCheckpointKeys
    modelDir: set<string>,                // files in the model directory before the run
    batches: (nat, Phase) -> seq<Batch>,  // what each epoch's phase yields
    format: real -> string)               // the `{:.5f}` rendering of an accuracy

  /** What `list(state_dict.keys())` holds: every key of the loaded
      checkpoint, once each, and nothing else. */
  predicate ListsCheckpointKeys(env: Environment) {
    && (forall k | k in env.checkpoint :: k in env.checkpointOrder)
    && (forall i | 0 <= i < |env.checkpointOrder| :: env.checkpointOrder[i] in env.checkpoint)
    && (forall i, j | 0 <= i < j < |env.checkpointOrder| :: env.checkpointOrder[i] != env.checkpointOrder[j])
  }

  /** The keys the strict load is given: the checkpoint's own, rewritten
      for densenet121. */
  function LoadedKeys(arch: Arch, env: Environment): set<string> {
    if arch == DenseNet121 then KeyRemap.RemapKeys(env.checkpoint.Keys) else env.checkpoint.Keys
  }

  /** The model directory once the class mapping has been written to it,
      which happens before the first epoch. */
  function DirectoryBeforeEpochs(nm: Naming, env: Environment): set<string> {
    env.modelDir + {MappingFileName(nm.dataset)}
  }

  /** One phase of an epoch. Every output of inception_v3 is read through
      `.logits`, but in eval mode the network returns a plain tensor, which
      has no such attribute: its test phase raises on the first batch. */
  function EpochPhase(arch: Arch, phase: Phase, batches: seq<Batch>, splitSize: nat): (r: Result<PhaseMetrics, Error>)
    ensures arch == InceptionV3 && phase == Test && batches != [] ==> r == Failure(NoLogits)
    ensures r.Success? <==> PhaseResult(batches, splitSize).Success? && !(arch == InceptionV3 && phase == Test)
    ensures r.Success? ==> r == PhaseResult(batches, splitSize)
    ensures r.Failure? ==> r == PhaseResult(batches, splitSize) || r == Failure(NoLogits)
  {
    if arch == InceptionV3 && phase == Test && batches != [] then Failure(NoLogits)
    else PhaseResult(batches, splitSize)
  }

  datatype Report = Report(
    datasetName: string, classMapping: map<string, string>, net: Net,
    checkpoints: State, schedulerSteps: nat)

  /** The trainer's fields after the call, and its result or exception. */
  datatype Outcome = Outcome(trainer: Trainer, result: Result<Report, Error>)

  /** The first `epochs` epochs: the train phase (then one scheduler step),
      the test phase, and the checkpoint rotation on the test accuracy. */
  function EpochLoop(nm: Naming, env: Environment, hasScheduler: bool, epochs: nat)
    : (r: Result<(State, nat), Error>)
    ensures r.Success? <==> epochs == 0 || (nm.arch != InceptionV3 && PhasesSucceed(env, epochs))
    ensures r.Success? ==> Valid(r.value.0) && r.value.1 == (if hasScheduler then epochs else 0)
    ensures r.Failure? ==>
      r.error == DivisionByZero || r.error == NoBatches || (r.error == NoLogits && nm.arch == InceptionV3)
  {
    if epochs == 0 then Success((Start(DirectoryBeforeEpochs(nm, env)), 0))
    else
      match EpochLoop(nm, env, hasScheduler, epochs - 1)
      case Failure(err) => Failure(err)
      case Success((s, steps)) =>
        var e := epochs - 1;
        var steps' := if hasScheduler then steps + 1 else steps;
        match EpochPhase(nm.arch, Train, env.batches(e, Train), env.trainSize)
        case Failure(err) => Failure(err)
        case Success(_) =>
          match EpochPhase(nm.arch, Test, env.batches(e, Test), env.testSize)
          case Failure(err) => Failure(err)
          case Success(m) =>
            match TestPhase(nm, s, m.accuracy, e)
            case Failure(err) => Result<(State, nat), Error>.Failure(err)
            case Success(s') => Success((s', steps'))
  }

  /** `range(num_experiments)`: a negative count runs no epoch. */
  function Epochs(numExperiments: int): nat {
    if numExperiments > 0 then numExperiments else 0
  }

  /** The checkpoint path in effect for a call: a non-empty
      `transfer_from_model` replaces the stored one for good. */
  function EffectivePath(t: Trainer, transferFrom: string): string {
    if transferFrom != "" then transferFrom else t.modelPath
  }

  /** `trainModel(num_experiments, ..., transfer_from_model)`. On success
      the selected backbone is the configured network, because the source
      mutates the model object its training parameters hold. */
  function TrainModel(t: Trainer, numExperiments: int, transferFrom: string, env: Environment): (r: Outcome)
    ensures t.dataDir == "" ==> r == Outcome(t, Failure(DataDirectoryNotSet))
    ensures t.dataDir != "" ==>
      && r.trainer.dataDir == t.dataDir && r.trainer.mode == t.mode
      && r.trainer.modelPath == EffectivePath(t, transferFrom)
    ensures t.dataDir != "" && t.model.None? ==> r.result == Failure(ModelTypeNotSet)
    ensures t.dataDir != "" && t.model.Some? && EffectivePath(t, transferFrom) != ""
            && TransferStateDict(t.model.value.arch, env.checkpoint, env.checkpointOrder).Keys
               != StateKeys(t.model.value.profile.backbone)
            ==> r.result == Failure(StateDictMismatch)
    ensures r.result == Failure(StateDictMismatch) ==>
      && t.dataDir != "" && t.model.Some? && EffectivePath(t, transferFrom) != ""
      && TransferStateDict(t.model.value.arch, env.checkpoint, env.checkpointOrder).Keys
         != StateKeys(t.model.value.profile.backbone)
    ensures t.hasScheduler ==> r.trainer.hasScheduler
    ensures r.trainer.hasScheduler && !t.hasScheduler ==>
      t.model.Some? && HasStepDecay(t.model.value.profile)
    ensures r.result.Success? ==>
      && t.dataDir != "" && t.model.Some?
      && r.trainer.hasScheduler == (t.hasScheduler || HasStepDecay(t.model.value.profile))
      && r.trainer.model == Some(t.model.value.(profile := t.model.value.profile.(backbone := r.result.value.net)))
  {
    if t.dataDir == "" then Outcome(t, Failure(DataDirectoryNotSet))
    else
      var t1 := t.(modelPath := EffectivePath(t, transferFrom));
      match t1.model
      case None => Outcome(t1, Failure(ModelTypeNotSet))
      case Some(sel) =>
        match ConfigureNet(sel.arch, sel.profile.backbone, t1.modelPath != "", t1.mode,
                           env.checkpoint, env.checkpointOrder, |env.classes|)
        case Failure(err) => Outcome(t1, Failure(err))
        case Success(net) => TrainConfigured(t1, sel, net, numExperiments, env)
  }

  /** The rest of `trainModel` once the network is configured: the
      scheduler, the class mapping, then the epochs. */
  function TrainConfigured(t: Trainer, sel: Selection, net: Net, numExperiments: int, env: Environment): (r: Outcome)
    ensures r.trainer.dataDir == t.dataDir && r.trainer.mode == t.mode && r.trainer.modelPath == t.modelPath
    ensures r.trainer.model.Some? && r.trainer.model.value.arch == sel.arch
    ensures r.trainer.model.value.profile.backbone == net
    ensures r.trainer.model.value.profile.lrDecayRate == sel.profile.lrDecayRate
    ensures r.trainer.model.value.profile.lrStepSize == sel.profile.lrStepSize
    ensures t.hasScheduler ==> r.trainer.hasScheduler
    ensures HasStepDecay(sel.profile) ==> r.trainer.hasScheduler
    ensures r.trainer.hasScheduler ==> t.hasScheduler || HasStepDecay(sel.profile)
    ensures r.result.Success? ==>
      && r.result.value.net == net
      && r.result.value.datasetName == DatasetName(t.dataDir)
      && r.result.value.classMapping == ClassMapping(env.classes)
      && r.result.value.schedulerSteps == (if r.trainer.hasScheduler then Epochs(numExperiments) else 0)
    ensures r.result.Failure? ==>
      || r.result.error == DivisionByZero || r.result.error == NoBatches
      || (r.result.error == NoLogits && sel.arch == InceptionV3)
  {
    var t2 := t.(model := Some(sel.(profile := sel.profile.(backbone := net))),
                 hasScheduler := t.hasScheduler || HasStepDecay(sel.profile));
    var datasetName := DatasetName(t.dataDir);
    var mapping := ClassMapping(env.classes);
    var nm := Naming(sel.arch, datasetName, env.format);
    match EpochLoop(nm, env, t2.hasScheduler, Epochs(numExperiments))
    case Failure(err) => Outcome(t2, Failure(err))
    case Success((s, steps)) => Outcome(t2, Success(Report(datasetName, mapping, net, s, steps)))
  }

  /** Every phase of the first `epochs` epochs yields a batch from a
      non-empty split, so no epoch raises. */
  predicate PhasesSucceed(env: Environment, epochs: nat) {
    && env.trainSize > 0 && env.testSize > 0
    && forall e | 0 <= e < epochs :: env.batches(e, Train) != [] && env.batches(e, Test) != []
  }

  /** The test accuracy of epoch e (0.0 stands in when the phase raises). */
  function TestAccuracy(env: Environment, e: nat): real {
    match PhaseResult(env.batches(e, Test), env.testSize)
    case Success(m) => m.accuracy
    case Failure(_) => 0.0
  }

  function TestAccuracies(env: Environment, epochs: nat): (accs: seq<real>)
    ensures |accs| == epochs
    ensures forall e | 0 <= e < epochs :: accs[e] == TestAccuracy(env, e)
  {
    if epochs == 0 then [] else TestAccuracies(env, epochs - 1) + [TestAccuracy(env, epochs - 1)]
  }

  /** One more epoch in which neither phase raises is one more test phase
      of the rotation, on that epoch's test accuracy. */
  lemma EpochStep(nm: Naming, env: Environment, hasScheduler: bool, e: nat)
    requires EpochLoop(nm, env, hasScheduler, e).Success?
    requires EpochPhase(nm.arch, Train, env.batches(e, Train), env.trainSize).Success?
    requires EpochPhase(nm.arch, Test, env.batches(e, Test), env.testSize).Success?
    ensures var p := EpochLoop(nm, env, hasScheduler, e).value;
      var next := TestPhase(nm, p.0, TestAccuracy(env, e), e);
      && next.Success?
      && EpochLoop(nm, env, hasScheduler, e + 1)
         == Success((next.value, if hasScheduler then p.1 + 1 else p.1))
  {
  }

  /** When no phase raises, the epoch loop is the checkpoint rotation run
      over the test accuracies, and the scheduler steps once per epoch
      exactly when it exists. */
  lemma {:induction false} EpochLoopRun(nm: Naming, env: Environment, hasScheduler: bool, epochs: nat)
    requires PhasesSucceed(env, epochs)
    requires epochs == 0 || nm.arch != InceptionV3
    ensures Run(nm, Start(DirectoryBeforeEpochs(nm, env)), TestAccuracies(env, epochs)).Success?
    ensures EpochLoop(nm, env, hasScheduler, epochs)
         == Success((Run(nm, Start(DirectoryBeforeEpochs(nm, env)), TestAccuracies(env, epochs)).value,
                     if hasScheduler then epochs else 0))
  {
    assert Valid(Start(DirectoryBeforeEpochs(nm, env)));
    if epochs > 0 {
      var e := epochs - 1;
      assert PhasesSucceed(env, e);
      EpochLoopRun(nm, env, hasScheduler, e);
      EpochStep(nm, env, hasScheduler, e);
      RunOneMoreEpoch(nm, env, e);
      var r := EpochLoop(nm, env, hasScheduler, epochs);
      assert r.Success?;
      assert r.value.1 == if hasScheduler then epochs else 0;
      assert r.value.0 == Run(nm, Start(DirectoryBeforeEpochs(nm, env)), TestAccuracies(env, epochs)).value;
    }
  }

  /** For inception_v3 the first epoch's test phase raises the missing
      `.logits` error once both phases yield a batch from a non-empty
      split, and every later epoch count fails the same way. */
  lemma {:induction false} InceptionFirstTestPhaseRaises(nm: Naming, env: Environment, hasScheduler: bool, epochs: nat)
    requires nm.arch == InceptionV3 && epochs > 0
    requires env.trainSize > 0 && env.batches(0, Train) != [] && env.batches(0, Test) != []
    ensures EpochLoop(nm, env, hasScheduler, epochs) == Failure(NoLogits)
  {
    if epochs > 1 {
      InceptionFirstTestPhaseRaises(nm, env, hasScheduler, epochs - 1);
    }
  }

  /** An inception_v3 call that runs at least one epoch never returns
      normally; once configuration and the first train phase succeed and
      the test loader yields a batch, it raises the missing `.logits`
      error. */
  lemma InceptionNeverTrains(t: Trainer, numExperiments: int, transferFrom: string, env: Environment)
    requires t.model.Some? && t.model.value.arch == InceptionV3
    requires Epochs(numExperiments) > 0
    ensures TrainModel(t, numExperiments, transferFrom, env).result.Failure?
    ensures t.dataDir != "" && HeadSlotOf(InceptionV3) in t.model.value.profile.backbone.heads
            && (EffectivePath(t, transferFrom) != "" ==>
                  TransferStateDict(InceptionV3, env.checkpoint, env.checkpointOrder).Keys
                  == StateKeys(t.model.value.profile.backbone))
            && env.trainSize > 0 && env.batches(0, Train) != [] && env.batches(0, Test) != []
            ==> TrainModel(t, numExperiments, transferFrom, env).result == Failure(NoLogits)
  {
    var sel := t.model.value;
    if t.dataDir != "" {
      var t1 := t.(modelPath := EffectivePath(t, transferFrom));
      var configured := ConfigureNet(sel.arch, sel.profile.backbone, t1.modelPath != "", t1.mode,
                                     env.checkpoint, env.checkpointOrder, |env.classes|);
      if configured.Success? {
        assert TrainModel(t, numExperiments, transferFrom, env)
            == TrainConfigured(t1, sel, configured.value, numExperiments, env);
        if env.trainSize > 0 && env.batches(0, Train) != [] && env.batches(0, Test) != [] {
          InceptionFirstTestPhaseRaises(Naming(InceptionV3, DatasetName(t.dataDir), env.format), env,
                                        t.hasScheduler || HasStepDecay(sel.profile), Epochs(numExperiments));
        }
      }
    }
  }

  /** The rotation over the test accuracies of one more epoch is one more
      test phase. */
  lemma RunOneMoreEpoch(nm: Naming, env: Environment, e: nat)
    ensures Run(nm, Start(DirectoryBeforeEpochs(nm, env)), TestAccuracies(env, e)).Success?
    ensures Run(nm, Start(DirectoryBeforeEpochs(nm, env)), TestAccuracies(env, e + 1))
         == TestPhase(nm, Run(nm, Start(DirectoryBeforeEpochs(nm, env)), TestAccuracies(env, e)).value, TestAccuracy(env, e), e)
  {
    var s0 := Start(DirectoryBeforeEpochs(nm, env));
    assert Valid(s0);
    var accs := TestAccuracies(env, e + 1);
    assert accs[..e] == TestAccuracies(env, e);
  }

  /** The snapshot the source iterates visits every key, so the load is
      given the rewritten keys of the whole checkpoint. */
  lemma CheckpointOrderVisitsKeys(arch: Arch, env: Environment)
    requires ListsCheckpointKeys(env)
    ensures TransferStateDict(arch, env.checkpoint, env.checkpointOrder).Keys == LoadedKeys(arch, env)
  {
    assert KeyRemap.VisitsLegacyKeys(env.checkpoint, env.checkpointOrder);
    TransferKeys(arch, env.checkpoint, env.checkpointOrder);
  }

  /** With the key order the source takes, a call that transfers fails on
      the strict load exactly when the checkpoint's keys, rewritten for
      densenet121, are not the backbone's state-dict keys. */
  lemma TrainModelStrictLoad(t: Trainer, numExperiments: int, transferFrom: string, env: Environment)
    requires ListsCheckpointKeys(env)
    requires t.dataDir != "" && t.model.Some? && EffectivePath(t, transferFrom) != ""
    ensures TrainModel(t, numExperiments, transferFrom, env).result == Failure(StateDictMismatch)
        <==> LoadedKeys(t.model.value.arch, env) != StateKeys(t.model.value.profile.backbone)
  {
    CheckpointOrderVisitsKeys(t.model.value.arch, env);
  }

  /** A run in which nothing raises: it reports the dataset name derived
      from the data directory, the sorted class mapping, the checkpoint
      rotation over the epochs' test accuracies and one scheduler step per
      epoch when a scheduler exists. */
  lemma TrainModelReport(t: Trainer, numExperiments: int, transferFrom: string, env: Environment)
    requires t.dataDir != "" && t.model.Some?
    requires HeadSlotOf(t.model.value.arch) in t.model.value.profile.backbone.heads
    requires ListsCheckpointKeys(env)
    requires EffectivePath(t, transferFrom) != "" ==>
      LoadedKeys(t.model.value.arch, env) == StateKeys(t.model.value.profile.backbone)
    requires PhasesSucceed(env, Epochs(numExperiments))
    requires Epochs(numExperiments) == 0 || t.model.value.arch != InceptionV3
    ensures var r := TrainModel(t, numExperiments, transferFrom, env);
      var nm := Naming(t.model.value.arch, DatasetName(t.dataDir), env.format);
      var accs := TestAccuracies(env, Epochs(numExperiments));
      && r.result.Success?
      && r.result.value.datasetName == DatasetName(t.dataDir)
      && r.result.value.classMapping == ClassMapping(env.classes)
      && Run(nm, Start(DirectoryBeforeEpochs(nm, env)), accs).Success?
      && r.result.value.checkpoints == Run(nm, Start(DirectoryBeforeEpochs(nm, env)), accs).value
      && r.result.value.schedulerSteps == (if r.trainer.hasScheduler then Epochs(numExperiments) else 0)
  {
    var sel := t.model.value;
    CheckpointOrderVisitsKeys(sel.arch, env);
    var t1 := t.(modelPath := EffectivePath(t, transferFrom));
    var configured := ConfigureNet(sel.arch, sel.profile.backbone, t1.modelPath != "", t1.mode,
                                   env.checkpoint, env.checkpointOrder, |env.classes|);
    assert configured.Success?;
    assert TrainModel(t, numExperiments, transferFrom, env)
        == TrainConfigured(t1, sel, configured.value, numExperiments, env);
    EpochLoopRun(Naming(sel.arch, DatasetName(t.dataDir), env.format), env,
                 t.hasScheduler || HasStepDecay(sel.profile), Epochs(numExperiments));
  }

  /** When the loaders cover the test split, the best accuracy a run keeps
      is the largest test accuracy and lies in [0, 1]. Besides the class
      mapping file, the only new file in the model directory is the
      checkpoint of the first epoch reaching that accuracy; from an empty
      directory these one or two files are all that remains. */
  lemma TrainModelBestCheckpoint(t: Trainer, numExperiments: int, transferFrom: string, env: Environment)
    requires t.dataDir != "" && t.model.Some?
    requires HeadSlotOf(t.model.value.arch) in t.model.value.profile.backbone.heads
    requires ListsCheckpointKeys(env)
    requires EffectivePath(t, transferFrom) != "" ==>
      LoadedKeys(t.model.value.arch, env) == StateKeys(t.model.value.profile.backbone)
    requires PhasesSucceed(env, Epochs(numExperiments))
    requires Epochs(numExperiments) == 0 || t.model.value.arch != InceptionV3
    requires forall e | 0 <= e < Epochs(numExperiments) :: CoversSplit(env.batches(e, Test), env.testSize)
    ensures var r := TrainModel(t, numExperiments, transferFrom, env);
      var nm := Naming(t.model.value.arch, DatasetName(t.dataDir), env.format);
      var accs := TestAccuracies(env, Epochs(numExperiments));
      var mapping := MappingFileName(DatasetName(t.dataDir));
      && r.result.Success?
      && var s := r.result.value.checkpoints;
      && s.bestAcc == BestAccuracy(accs)
      && 0.0 <= s.bestAcc <= 1.0
      && mapping in s.disk
      && (forall f | f in s.disk && f !in env.modelDir && f != mapping ::
            s.bestAcc > 0.0 && f == CheckpointName(nm, s.bestAcc, FirstBestEpoch(accs)))
      && (env.modelDir == {} ==>
            s.disk == {mapping} + (if s.bestAcc > 0.0
                                   then {CheckpointName(nm, s.bestAcc, FirstBestEpoch(accs))} else {}))
  {
    TrainModelReport(t, numExperiments, transferFrom, env);
    var nm := Naming(t.model.value.arch, DatasetName(t.dataDir), env.format);
    RotationOverTestAccuracies(nm, env, Epochs(numExperiments));
  }

  /** A directory holding `mapping` and what `others` names, and otherwise
      only what `others` names, holds exactly those. */
  lemma OnlyNewFilesRemain(disk: set<string>, mapping: string, others: set<string>)
    requires mapping in disk && others <= disk
    requires forall f | f in disk && f != mapping :: f in others
    ensures disk == {mapping} + others
  {
  }

  /** The mapping file never shares a name with a checkpoint: one ends in
      `.json`, the other in `.pt`. */
  lemma MappingFileIsNoCheckpoint(dataset: string, nm: Naming, acc: real, epoch: nat)
    ensures MappingFileName(dataset) != CheckpointName(nm, acc, epoch)
  {
    EndsWithLast(MappingFileName(dataset), ".json");
    EndsWithLast(CheckpointName(nm, acc, epoch), "_epoch-" + NatToString(epoch) + ".pt");
  }

  /** The rotation run over the test accuracies of epochs whose test loaders
      cover the split keeps an accuracy in [0, 1], never deletes the class
      mapping file written before it, and adds only the first best epoch's
      checkpoint to the directory. */
  lemma RotationOverTestAccuracies(nm: Naming, env: Environment, epochs: nat)
    requires env.testSize > 0
    requires forall e | 0 <= e < epochs :: CoversSplit(env.batches(e, Test), env.testSize)
    ensures var accs := TestAccuracies(env, epochs);
      var mapping := MappingFileName(nm.dataset);
      && Run(nm, Start(DirectoryBeforeEpochs(nm, env)), accs).Success?
      && var s := Run(nm, Start(DirectoryBeforeEpochs(nm, env)), accs).value;
      && s.bestAcc == BestAccuracy(accs)
      && 0.0 <= s.bestAcc <= 1.0
      && mapping in s.disk
      && (s.bestAcc > 0.0 ==> CheckpointName(nm, s.bestAcc, FirstBestEpoch(accs)) in s.disk)
      && (forall f | f in s.disk && f !in env.modelDir && f != mapping ::
            s.bestAcc > 0.0 && f == CheckpointName(nm, s.bestAcc, FirstBestEpoch(accs)))
      && (env.modelDir == {} ==>
            s.disk == {mapping} + (if s.bestAcc > 0.0
                                   then {CheckpointName(nm, s.bestAcc, FirstBestEpoch(accs))} else {}))
  {
    var accs := TestAccuracies(env, epochs);
    RotationKeepsMappingFile(nm, env.modelDir, accs);
    var s := Run(nm, Start(DirectoryBeforeEpochs(nm, env)), accs).value;
    if s.bestAcc > 0.0 {
      var e :| 0 <= e < |accs| && accs[e] == s.bestAcc;
      AccuracyInUnitInterval(env.batches(e, Test), env.testSize);
    }
  }

  /** Over a directory that already holds the class mapping file, the
      rotation keeps that file, keeps the first best epoch's checkpoint
      when some accuracy was positive, and adds nothing else. */
  lemma RotationKeepsMappingFile(nm: Naming, modelDir: set<string>, accs: seq<real>)
    ensures var mapping := MappingFileName(nm.dataset);
      var dir := modelDir + {mapping};
      && Run(nm, Start(dir), accs).Success?
      && var s := Run(nm, Start(dir), accs).value;
      && s.bestAcc == BestAccuracy(accs)
      && mapping in s.disk
      && (s.bestAcc > 0.0 ==> CheckpointName(nm, s.bestAcc, FirstBestEpoch(accs)) in s.disk)
      && (forall f | f in s.disk && f !in modelDir && f != mapping ::
            s.bestAcc > 0.0 && f == CheckpointName(nm, s.bestAcc, FirstBestEpoch(accs)))
      && (modelDir == {} ==>
            s.disk == {mapping} + (if s.bestAcc > 0.0
                                   then {CheckpointName(nm, s.bestAcc, FirstBestEpoch(accs))} else {}))
  {
    var mapping := MappingFileName(nm.dataset);
    var dir := modelDir + {mapping};
    RunOutcome(nm, dir, accs);
    var s := Run(nm, Start(dir), accs).value;
    forall e | 0 <= e < |accs| ensures mapping != CheckpointName(nm, accs[e], e) {
      MappingFileIsNoCheckpoint(nm.dataset, nm, accs[e], e);
    }
    if s.bestAcc > 0.0 {
      assert s.prevName != "";
    }
    if modelDir == {} {
      OnlyNewFilesRemain(s.disk, mapping,
                         if s.bestAcc > 0.0 then {CheckpointName(nm, s.bestAcc, FirstBestEpoch(accs))} else {});
    }
  }

  /** A trainer fresh from `__init__` refuses to train until a data
      directory is set, and then until a model type is chosen; once both
      are, its default fine-tune-all mode keeps every backbone flag, even
      when a checkpoint is loaded. */
  lemma FreshTrainerSetup(numExperiments: int, transferFrom: string, env: Environment,
                          path: string, directories: set<string>, arch: Arch, profile: Profile)
    ensures TrainModel(NewTrainer(), numExperiments, transferFrom, env)
         == Outcome(NewTrainer(), Failure(DataDirectoryNotSet))
    ensures var d := SetDataDirectory(NewTrainer(), path, directories);
      d.Success? ==> TrainModel(d.value, numExperiments, transferFrom, env).result == Failure(ModelTypeNotSet)
    ensures var d := SetDataDirectory(SetModel(NewTrainer(), arch, profile), path, directories);
      d.Success? ==>
      var r := TrainModel(d.value, numExperiments, transferFrom, env);
      r.result.Success? ==>
      && |r.result.value.net.params| == |profile.backbone.params|
      && forall i | 0 <= i < |r.result.value.net.params| ::
           r.result.value.net.params[i].trainable == profile.backbone.params[i].trainable
  {
    var d := SetDataDirectory(SetModel(NewTrainer(), arch, profile), path, directories);
    if d.Success? {
      assert d.value.mode == FineTuneAll;
      TrainModelHead(d.value, numExperiments, transferFrom, env);
    }
  }

  /** Once a model type is chosen, `trainModel` no longer raises the
      missing-model-type error, and a successful call trains the chosen
      architecture with a network built from the chosen backbone. */
  lemma SetModelSelects(t: Trainer, arch: Arch, profile: Profile,
                        numExperiments: int, transferFrom: string, env: Environment)
    ensures var r := TrainModel(SetModel(t, arch, profile), numExperiments, transferFrom, env);
      && r.result != Failure(ModelTypeNotSet)
      && (r.result.Success? ==>
            && r.trainer.model.Some? && r.trainer.model.value.arch == arch
            && r.result.value.net == ConfigureNet(
                 arch, profile.backbone, EffectivePath(t, transferFrom) != "", t.mode,
                 env.checkpoint, env.checkpointOrder, |env.classes|).value)
  {
    var t' := SetModel(t, arch, profile);
    if t.dataDir != "" {
      var configured := ConfigureNet(arch, profile.backbone, EffectivePath(t, transferFrom) != "", t.mode,
                                     env.checkpoint, env.checkpointOrder, |env.classes|);
      if configured.Success? {
        assert TrainModel(t', numExperiments, transferFrom, env)
            == TrainConfigured(t'.(modelPath := EffectivePath(t, transferFrom)), Selection(arch, profile),
                               configured.value, numExperiments, env);
      }
    }
  }

  /** After a successful call the new head is trainable, has the backbone's
      input width and one output per class; every other parameter keeps
      its flag, except that a checkpoint loaded in freeze-all mode clears
      it. On a fresh (all-trainable) backbone, everything but the head is
      frozen exactly when such a checkpoint was loaded. */
  lemma TrainModelHead(t: Trainer, numExperiments: int, transferFrom: string, env: Environment)
    requires t.model.Some?
    ensures var r := TrainModel(t, numExperiments, transferFrom, env);
      r.result.Success? ==>
      var net := r.result.value.net;
      var backbone := t.model.value.profile.backbone;
      var slot := HeadSlotOf(t.model.value.arch);
      var frozen := EffectivePath(t, transferFrom) != "" && t.mode == FreezeAll;
      && net.heads.Keys == backbone.heads.Keys
      && net.heads[slot] == Linear(backbone.heads[slot].inFeatures, |env.classes|, true)
      && |net.params| == |backbone.params|
      && (forall i | 0 <= i < |net.params| ::
            net.params[i].trainable == (backbone.params[i].trainable && !frozen))
      && (forall s | s in net.heads && s != slot ::
            net.heads[s].trainable == (backbone.heads[s].trainable && !frozen))
      && (AllTrainable(backbone) ==>
            && (forall i | 0 <= i < |net.params| :: net.params[i].trainable == !frozen)
            && (forall s | s in net.heads && s != slot :: net.heads[s].trainable == !frozen))
  {
    var sel := t.model.value;
    var transfer := EffectivePath(t, transferFrom) != "";
    if t.dataDir != ""
       && ConfigureNet(sel.arch, sel.profile.backbone, transfer, t.mode,
                       env.checkpoint, env.checkpointOrder, |env.classes|).Success? {
      ConfigureNetTrainable(sel.arch, sel.profile.backbone, transfer, t.mode,
                            env.checkpoint, env.checkpointOrder, |env.classes|);
    }
  }
}

=== FILE: wrappers.dfy ===
/** Failure-compatible Option and Result types, used with `:-` to model the
    exceptions the trainer raises as explicit error values. */
module Wrappers {

  datatype Option<+T> = None | Some(value: T) {
    predicate IsFailure() { None? }

    function PropagateFailure<U>(): Option<U>
      requires None?
    {
      None
    }

    function Extract(): T
      requires Some?
    {
      value
    }
  }

  datatype Result<+R, +E> = Success(value: R) | Failure(error: E) {
    predicate IsFailure() { Failure? }

    function PropagateFailure<U>(): Result<U, E>
      requires Failure?
    {
      Failure(error)
    }

    function Extract(): R
      requires Success?
    {
      value
    }
  }
}
